=== FILE: README.md ===
# Pallet count reconciliation — a Dafny model

The tool lets an operator type pallet ids and counted quantities. It looks
each id up in a reference inventory loaded from a spreadsheet and records the
difference between the counted and the system quantity. It then reports
statistics over the session: exact, surplus, shortfall and not-found pallets,
precision, efficiency, per-warehouse figures and the Excel report's summary.
The repository has two independent implementations of this engine, and the
model covers both, each as written:

- `app.py`, the Streamlit tool. Its lookup compares stripped ids and is
  case-sensitive. Its session supports a duplicate dialog (replace, add as
  new, cancel), delete, edit, clear and search.
- `fastapi_app.py`, the FastAPI tool. Its lookup compares stripped,
  upper-cased ids. Its state is the inventory, the counted pallets and a
  `total_processed` counter.

Modules:

| module | file | what it holds |
|---|---|---|
| `Wrappers` | wrappers.dfy | `Option` and `Result` |
| `Seqs` | seqs.dfy | count, filter and first match over sequences, with the counting lemmas every statistic rests on |
| `Text` | text.dfy | Python's `str.strip()`, `str.upper()`, `str(int)`, case-insensitive containment and pandas' numeric coercion of a quantity cell |
| `Sheet` | sheet.dfy | the reference spreadsheet as a header plus rows of text cells; column names and defaults |
| `AppInventory` | app_inventory.dfy | `cargar_inventario` and `buscar_info_pallet` of app.py |
| `AppSession` | app_session.dfy | records and the session handlers of app.py |
| `Tally` | tally.dfy | the statistics both implementations compute, and exact percentages |
| `AppStats` | app_stats.dfy | app.py's metrics: precision, error rate, efficiency, critical pallets, per-warehouse groups |
| `AppReport` | app_report.dfy | the summary sheet of app.py's Excel report (a left join of records with the inventory) |
| `ApiInventory` | api_inventory.dfy | `InventarioManager.cargar_inventario` and `buscar_pallet` |
| `ApiSession` | api_session.dfy | the FastAPI state and its endpoints as state-to-state functions |

Percentages are exact reals: the tools round them for display, and the model
does not. A spreadsheet is an abstract header plus text rows, and an empty
cell is the empty string. The clock is a `stamp` the caller supplies.

Behaviour of the code worth knowing, as modelled:

- app.py's lookup compares stripped ids case-sensitively (app.py:157), while
  fastapi_app.py upper-cases both sides (fastapi_app.py:74-75).
  `AppInventory.LookupIsCaseSensitive` shows the difference.
- Not-found pallets also fall into one of the three sign counts
  (app.py:180-184), so exact, surplus, shortfall and not-found are not a
  partition in either implementation; see Findings.
- Unmatched pallets carry no warehouse, and `groupby('almacen')` drops them
  from the per-warehouse table (app.py:867).
- Both loaders accept any integer quantity, including a negative numeral
  (app.py:139, fastapi_app.py:60).

## Model

| member | source | states |
|---|---|---|
| AppInventory.Load | app.py:127-139 | The loader fails naming `Id de pallet` when that column is missing, and otherwise fails naming `Inventario físico` when that one is missing; it succeeds exactly when both are present. It keeps every row in order with its id cell as read, fills a missing `Almacén` with `Almacén General` and otherwise keeps the warehouse cell, keeps the code and name cells of columns that exist, and coerces each quantity cell (non-numbers become 0). |
| AppInventory.LoadRender | app.py:121-139 | Loading a sheet written from an inventory that has every column gives back the same inventory: rows, ids, coerced quantities and descriptive fields. |
| AppInventory.Lookup | app.py:152-173 | No inventory or an empty id finds nothing. Otherwise a match exists exactly when some row's stripped id equals the stripped query, and the answer is the first such row's stripped warehouse, code and name ("N/A" for an absent column) and its quantity. |
| AppInventory.LookupIgnoresPadding | app.py:157 | Whitespace typed around a non-empty id never changes what the lookup finds. |
| AppInventory.LookupIsCaseSensitive | app.py:157 | Against a row `PLT001`, the query `plt001` finds nothing, while `PLT001 ` finds the row. |
| AppSession.Blank | app.py:208-210 | A looked-up field equal to "N/A" is stored as empty text, and any other field is stored unchanged. |
| AppSession.MakeRecord | app.py:188-215 | A new record has a system quantity exactly when the lookup matched. Its difference is counted minus system when matched and the counted quantity otherwise. Its descriptive fields come from the lookup and are absent when unmatched. |
| AppSession.FreshBalances | app.py:202 | For a record built from a lookup, the difference plus the system quantity (0 when absent) is the counted quantity. |
| AppSession.Process | app.py:217-218 | Processing appends exactly one record at the end and leaves every earlier record unchanged. |
| AppSession.ProcessKeepsFresh | app.py:188-218 | If every record agrees with a fresh lookup, that still holds after processing. |
| AppSession.IsDuplicate | app.py:553-555 | An id is a duplicate exactly when some record's raw id equals it. |
| AppSession.DuplicateIsExact | app.py:555 | The duplicate test is exact: `PLT001` is a duplicate of a recorded `PLT001`, but `PLT001 ` and `plt001` are not. |
| AppSession.Submit | app.py:550-572 | The add button rejects an empty slip or id, opens the duplicate dialog with the pending entry exactly when the id is already recorded, and otherwise processes the entry. |
| AppSession.ReplaceAll | app.py:581-592 | Replace removes every record with the id and appends the new one. The length drops by the number of removed records, then grows by one. Exactly one record with the id remains, and it is last. The other records keep their values and order. |
| AppSession.Resolve | app.py:575-614 | Replace leaves exactly one record with the id, and the last record is the one processed from the pending slip, id and count; the other records keep their values and order. Add-as-new appends that processed record, leaves the prior ones untouched and adds one to that id's count. Cancel leaves the session unchanged. |
| AppSession.ResolveKeepsFresh | app.py:575-614 | Every choice of the duplicate dialog keeps every record agreeing with a fresh lookup. |
| AppSession.Delete | app.py:659-665 | Deleting at a valid index removes exactly that record: earlier records stay, later ones shift down by one, and the multiset loses only that record. An invalid index fails. |
| AppSession.DeleteCount | app.py:662 | Deleting a record removes exactly its own contribution from every count over the session. |
| AppSession.Edit | app.py:713-730 | Saving an edit at a valid index keeps the length. It replaces that record with one rebuilt from a fresh lookup of the new id and count, keeps its creation stamp, and changes no other record. An invalid index fails. |
| AppSession.EditKeepsFresh | app.py:713-730 | Editing keeps every record agreeing with a fresh lookup. |
| AppSession.EditUnchanged | app.py:713-730 | Saving an edit without changing anything leaves a session of fresh records as it was. |
| AppSession.Clear | app.py:762-764 | Clearing empties the session, so every count over it is 0. |
| AppSession.RowMatchesLower | app.py:672 | The search term's letter case does not change whether a row matches. |
| AppSession.Search | app.py:669-673 | The search returns strictly increasing row positions. A row is included exactly when one of its texts contains the term, ignoring case. An empty term keeps every row. |
| Tally.Statistics | app.py:175-186 | An empty session gives five zeros. Otherwise the total is the number of records, exact + surplus + shortfall equals the total, and not-found is at most the total. |
| Tally.StatisticsAppend | app.py:180-184 | Appending a record adds one to the total and one to exactly the sign count of its difference. It adds one to not-found exactly when the record is unmatched. |
| Tally.Precision | app.py:814 | Precision is 0 with no records and otherwise satisfies precision × total = exact × 100. It lies in 0..100, is 100 exactly when all records are exact, and is 0 exactly when none is. |
| Tally.Distribute | app.py:792-793 | The four-way split adds up to the number of records. Its not-found equals the statistics' not-found, each sign slice is at most the statistics' count, and the two agree when every record was matched. |
| Tally.DistributeAppend | app.py:792-793 | Appending a record adds one to exactly one slice: not-found if it is unmatched, otherwise the slice named by the sign of its difference. |
| AppStats.SessionStats | app.py:175-186 | The five counts over a session. Not-found is 0 exactly when every record has a system quantity. |
| AppStats.StatsScenario | app.py:175-186 | Records with differences 0, 5 and −3, plus an unknown pallet counted 4, give total 4, exact 1, surplus 2, shortfall 1, not found 1, and precision 25. |
| AppStats.ChartSlicesOverlap | app.py:792-793 | One unknown pallet counted 0 is both exact and not found, so the chart's four slices add up to the total plus one. |
| AppStats.ChartSlices | app.py:792-793 | The corrected chart slices partition the session, with not-found as given by the statistics. |
| AppStats.ChartSlicesAppend | app.py:792-793 | In the corrected chart one more pallet adds exactly one to one slice. It is not-found when it has no system quantity, and otherwise exact, surplus or shortfall by the sign of its difference. |
| AppStats.SessionPrecision | app.py:814 | The gauge's precision is in 0..100 and is 0 for an empty session; otherwise precision × total = exact × 100. |
| AppStats.ErrorRate | app.py:948 | The error rate is 0 for an empty session; otherwise it and the precision add up to 100, and rate × total = (surplus + shortfall) × 100. |
| AppStats.Efficiency | app.py:970 | The efficiency as written is 100 times the total over the total plus not-found. It can never fall below 50 when not-found is at most the total, as it always is: it lies in 50..100, is 50 exactly when every pallet is not found, and is 100 exactly when none is (100 also when both counts are 0). |
| AppStats.EfficiencyAtLeastHalf | app.py:970 | For a non-empty session the efficiency is always between 50 and 100. It equals 50 exactly when no pallet was found. |
| AppStats.EfficiencyOfUnknownPallet | app.py:970 | A one-pallet session whose pallet is unknown reports 50 % efficiency. |
| AppStats.MatchRate | app.py:968-972 | The corrected efficiency is the share of pallets found, between 0 and 100 (100 for an empty session): rate × total = (total − not-found) × 100. |
| AppStats.MatchRateExtremes | app.py:968-972 | The corrected efficiency is 100 exactly when every pallet was found and 0 exactly when none was. |
| AppStats.CriticalCount | app.py:982-985 | The critical count is positive exactly when some pallet's difference is beyond ±10, and never exceeds surplus plus shortfall. |
| AppStats.CriticalAppend | app.py:982-985 | Counting one more pallet raises the critical count by one exactly when that pallet's difference is beyond ±10. |
| AppStats.Warehouses | app.py:867 | The warehouses of the session are listed once each. A name is listed exactly when some record carries it. |
| AppStats.GroupOf | app.py:867-870 | A warehouse's group has pallets exactly when some record carries that warehouse, and its exact pallets never outnumber its pallets. |
| AppStats.GroupOfAppend | app.py:867-870 | Counting one more pallet adds one to its own warehouse's pallets, and one to that warehouse's exact pallets when its difference is 0; every other warehouse's counts stay. |
| AppStats.Groups | app.py:867-870 | There is one group per warehouse present, each with at least one pallet and no more exact pallets than pallets. |
| AppStats.GroupPrecision | app.py:871 | A group's precision is in 0..100, satisfies precision × pallets = exact × 100, and is 100 exactly when all its pallets are exact. |
| AppStats.GroupsCoverWarehoused | app.py:867-870 | The groups' pallet counts add up to the number of records that carry a warehouse. |
| AppReport.Partners | app.py:238-243 | A record's join partners are exactly the inventory rows whose stripped id equals the record's stripped id. |
| AppReport.JoinOne | app.py:242-243 | A record contributes one joined row per partner, or a single unmatched row when it has none. |
| AppReport.Join | app.py:242-243 | The left join loses no record: every record appears in some join row, every join row belongs to a record, and there are at least as many rows as records. Every matched row pairs a record with an inventory row of the same stripped id. |
| AppReport.Report | app.py:228-316 | An empty session produces no report. Otherwise found + not-found is the number of join rows (at least the number of records), exact + discrepancies = found, surplus + shortfall ≤ discrepancies, and precision is exact / found × 100, or 0 when nothing was found. |
| AppReport.JoinCounts | app.py:246-256 | Over any join, found and not-found rows add up to all rows, and exact and discrepancy rows add up to found rows. Signed rows are at most the discrepancies. |
| AppReport.ReportRowsUnique | app.py:242-247 | Without repeated stripped ids in the inventory, found + not-found equals the number of records. |
| AppReport.ReportNotFoundAgrees | app.py:184-247 | For a session built from the inventory, the report's not-found count equals the statistics' not-found count. |
| AppReport.ReportSignsSplit | app.py:251-315 | For a session built from the inventory, surplus + shortfall equals the discrepancies. |
| AppReport.ReportMatchesSlices | app.py:228-316 | For a session built from an inventory without repeated ids, the report's exact, surplus, shortfall and not-found counts equal the corrected chart slices, so each counted pallet is in exactly one of them. |
| ApiInventory.Load | fastapi_app.py:40-61 | The loader fails exactly when either required column is missing. It drops blank rows and keeps the others in order. Each id is the stripped id cell, each quantity the coerced quantity cell (non-numbers become 0), and each warehouse, code and name is the row's cell when the column exists and the column's default otherwise. |
| ApiInventory.LoadRender | fastapi_app.py:34-63 | Loading a sheet written from an inventory with stripped ids gives back the same inventory. |
| ApiInventory.Lookup | fastapi_app.py:69-88 | No inventory or an empty id gives no answer. Otherwise the answer is not-found exactly when no row's stripped, upper-cased id equals the stripped, upper-cased query. A found answer is the first such row's stripped fields and its quantity. |
| ApiInventory.LookupIgnoresPadding | fastapi_app.py:74-75 | Whitespace around a non-empty id never changes the answer. |
| ApiInventory.LookupIgnoresCase | fastapi_app.py:74-75 | Typing a stripped id in lower case gives the same answer as the id itself. |
| ApiInventory.LookupScenario | fastapi_app.py:74-86 | Against a row `PLT001` with quantity 50, the query `plt001 ` finds that row. |
| ApiInventory.UnknownScenario | fastapi_app.py:74-88 | Against the same row, `PLT999` is reported as not found. |
| ApiSession.NewRecord | fastapi_app.py:194-221 | A new record stores the stripped id. It is found exactly when the lookup found the pallet. A found record has difference counted − system and takes its fields from the lookup. Otherwise the difference is the count, there is no system quantity and the three fields are "N/A". |
| ApiSession.StatusOf | fastapi_app.py:228-240 | The status is info exactly when the pallet was not found, showing the count. Otherwise it is success, warning or error by the sign of the difference, showing the count, the surplus, or the absolute shortfall. |
| ApiSession.SessionFigures | fastapi_app.py:91-111 | An empty session gives all-zero statistics and precision 0. Otherwise exact + surplus + shortfall = total, not-found ≤ total, and precision = exact / total × 100. |
| ApiSession.AddPallet | fastapi_app.py:194-247 | Adding appends exactly one record with the stripped id at the end, leaves earlier records and the inventory unchanged, adds one to the counter, and answers with that record's status and the new statistics. |
| ApiSession.AddPalletCounts | fastapi_app.py:224-246 | The status agrees with the statistics: success, warning and error raise exact, surplus and shortfall by one without touching not-found, and info raises not-found by one. |
| ApiSession.ClearAll | fastapi_app.py:252-257 | Clearing empties the session, resets the counter to 0 and keeps the inventory. |
| ApiSession.UploadInventory | fastapi_app.py:163-177 | An upload replaces the inventory and reports the row count exactly when the loader succeeds. A rejected upload leaves the state as it was. |
| ApiSession.SearchPallet | fastapi_app.py:179-183 | The search answer is not-found when the lookup gives no answer or not-found, and otherwise is the lookup's answer. |
| ApiSession.ExportExcel | fastapi_app.py:259-281 | Export fails exactly when the session is empty. Otherwise it writes the records and the session's statistics. |
| ApiSession.Step | fastapi_app.py:163-257 | Searches and exports leave the state alone. An add with an empty slip or id is refused and leaves the state alone; any other add appends exactly the new record. A clear empties the session and keeps the inventory. |
| ApiSession.RunKeepsConsistent | fastapi_app.py:224-256 | Over any sequence of requests, the counter keeps equal to the number of records. Both equal the number of accepted adds since the last clear. |
| ApiSession.ServerConsistent | fastapi_app.py:20-28 | From the start state, the counter always equals the number of counted pallets. |
| ApiSession.ExactScenario | fastapi_app.py:194-246 | Adding `plt001 ` counted 50 against `PLT001` with 50 stores id `plt001` with difference 0. The status is success, the statistics are one exact pallet, and precision is 100. |
| ApiSession.UnknownScenario | fastapi_app.py:194-246 | Adding `PLT999` counted 10 stores a not-found record with difference 10 and "N/A" fields. The status is info, and the statistics count it as both a surplus and not found. |
| ApiSession.ChartSlicesOverlap | fastapi_app.py:121-124 | One unknown pallet counted 0 makes the home page's four slices add up to the total plus one. |
| ApiSession.ChartSlices | fastapi_app.py:121-124 | The corrected slices partition the session, with not-found as given by the statistics. |
| ApiSession.ChartSlicesAppend | fastapi_app.py:121-124 | In the corrected home-page slices one more pallet adds exactly one to one slice. It is not-found when the inventory does not know it, and otherwise goes by the sign of its difference. |
| Text.QuantityRoundTrip | app.py:139 | Coercing the decimal text of any integer gives that integer back. |
| Text.QuantityBlanks | app.py:139 | ASCII blanks around a quantity are skipped, but a cell starting with a no-break space is not a number and is coerced to 0. |
| Text.StripPadded | app.py:157 | Whitespace added around a string never changes what it strips to. |

## Left out

- Reading and writing Excel workbooks (pandas, openpyxl, xlsxwriter), cell formats and sheet layout. A sheet is an abstract header plus text rows, and the report keeps only the summary counts.
- Streamlit widgets, the keyboard-focus scripting and `campo_counter` key cycling.
- AppSession.MakeRecord: a record is always built from a direct lookup of its own id. app.py instead prefers the `info_detectada` cache, which holds the lookup of whatever id the entry field shows (app.py:190-196, 523-538). When the duplicate dialog is open and the operator changes the id field before pressing Replace or Add as new, the stored record gets the other pallet's fields and system quantity. That stale-cache case is not modelled.
- The loader warnings (a missing `Almacén` column, duplicate reference ids): they only display messages.
- The exception branches of the loaders and endpoints (app.py:148-150, fastapi_app.py:65-66). Reading a file is abstracted away. The sheets that make the source's loaders raise are listed under AppInventory.Load, ApiInventory.Load and Sheet.ColumnIndex below.
- FastAPI routing, templates, uvicorn and the shared global state. The state is passed explicitly from one request to the next. Of FastAPI's form validation, only the refusal of an empty slip or id on an add is modelled (in `ApiSession.Step`); a non-integer count cannot be expressed, because the count is an integer.
- Plotly charts, histograms, top-10 lists, `describe()`, and the float mean, variance and unit sums of app.py. These are presentation or floating-point summaries.
- Rounding percentages to one or two decimals. Percentages are exact.
- `datetime.now()`: a record's stamp is supplied by the caller, and an edit keeps it.
- AppSession.Search: the term is matched as literal text, but pandas treats it as a regular expression. The system-quantity, timestamp and formatted-difference columns are not searched, because their text depends on pandas' float and NaN rendering.
- Text.Upper: case mapping covers ASCII and Latin-1 only; other scripts are left unchanged.
- Text.Lower: the same ASCII and Latin-1 restriction applies to lower-casing, which the search's case-insensitive match relies on.
- Text.ParseQuantity: decimal numerals with an optional sign and fraction, surrounded by ASCII blanks, are parsed. Exponents, `inf` and thousands separators are not, and such cells become 0, as any non-number does. The source differs on two of these: a cell with an exponent such as "1e3" is the number 1000 there, and a cell read as infinite ("inf", "-Infinity", "1e400") makes the integer conversion fail.
- AppInventory.Load: headers are always text, and quantities are unbounded integers. The source differs in four ways:
  - A quantity cell with an exponent such as "1e3" loads as 1000 in the source and as 0 in the model.
  - A cell read as infinite makes the conversion at app.py:139 raise. The source loader then reports an error and returns nothing (app.py:148-150), while the model loads the row with quantity 0.
  - The cast at app.py:139 is to 64-bit integers. A finite value outside that range, such as "99999999999999999999", does not keep its value; NumPy's cast typically gives -2^63. When the column also holds a blank or non-numeric cell it is read as 64-bit floats first, and values above 2^53 are rounded. The model keeps every value exactly.
  - pandas keeps a numeric or date header cell as a number or a date. `c.strip()` at app.py:124 then raises, so app.py rejects the sheet (app.py:148-150). The model loads it, as fastapi_app.py:41 does with `str(c).strip()`.
- ApiInventory.Load: the same model, with three differences from the source:
  - "1e3" loads as 1000 in the source and as 0 in the model.
  - An infinite cell makes the conversion at fastapi_app.py:60 raise, so the source returns its error message with no table (fastapi_app.py:65-66). The model loads the row with quantity 0.
  - The same 64-bit cast and float rounding apply at fastapi_app.py:60. The lookup's `int(float(...))` at fastapi_app.py:85 also rounds system quantities above 2^53. The model keeps them exact.
- ApiSession.SearchPallet: the form field is required, so a request with an empty or missing id gets FastAPI's 422 validation error before the handler runs. The model answers that request not-found, as the lookup of an empty id does.
- Sheet.ColumnIndex: a header that occurs twice after stripping is read at its first occurrence. pandas instead selects both columns, and the source's outcome depends on which header repeats:
  - A repeated `Almacén`, `Código de artículo` or `Nombre del producto` makes neither loader fail. The lookup's `str(...)` (app.py:161-164, fastapi_app.py:82-84) then stores the printed text of both cells, where the model stores the first cell.
  - A repeated `Id de pallet` does not make app.py's loader fail. The lookup at app.py:157 then raises, because a two-column selection has no `.str`. In fastapi_app.py the same selection makes the loader raise at line 61.
  - A repeated `Inventario físico` makes both loaders raise at the numeric conversion (app.py:139, fastapi_app.py:60).
  - The model loads every such sheet.
- pandas' rendering of a missing cell as the text `nan` after `astype(str)`. An empty cell is the empty string.
- AppStats.Groups: groups come in order of first appearance, while `groupby` sorts them by name. The contents are the same.
- ApiSession.StatusOf: the message text, its emoji and the raw id it starts with are not modelled, only the kind and the number shown.
- `advanced_dashboard.py` is not part of this model.

## Findings

| source | as written | input that shows it | evidently intended | confidence | as-written member | corrected member |
|---|---|---|---|---|---|---|
| app.py:792-793 | The results chart draws exact, surplus, shortfall and not-found as four slices of one whole. Not-found pallets also fall into one of the three sign counts, because their difference is their count. | A session with one unknown pallet counted 0: exact 1 and not-found 1, so two slices for one pallet. | Each pallet in exactly one slice: not-found first, then by sign. | medium, not executed | AppStats.ChartSlicesOverlap | AppStats.ChartSlices |
| app.py:970 | The counting efficiency is `total / (total + no_encontrados)`, but not-found pallets are already part of `total`. | One unknown pallet: total 1, not-found 1, efficiency 50 %. No non-empty session can score below 50 %. | The share of counted pallets found in the inventory, `(total − no_encontrados) / total`, as its help text says ("valid pallets vs. total attempted"). | high, not executed | AppStats.EfficiencyAtLeastHalf | AppStats.MatchRate |
| fastapi_app.py:121-124 | The home page's donut chart repeats the four overlapping counts as slices. | One unknown pallet counted 0: exact 1 and not-found 1. | Each pallet in exactly one slice. | medium, not executed | ApiSession.ChartSlicesOverlap | ApiSession.ChartSlices |

=== FILE: api_inventory.dfy ===
/**
  The FastAPI tool's reference inventory (`InventarioManager.cargar_inventario`
  and `InventarioManager.buscar_pallet` in fastapi_app.py). Unlike the Streamlit
  loader it drops blank rows, stores stripped ids and fills all three optional
  columns; its lookup ignores both surrounding whitespace and letter case.
 */
module ApiInventory {
  import opened Wrappers
  import opened Seqs
  import opened Text
  import opened Sheet

  /** One reference row after loading: the id is stripped, the quantity coerced. */
  datatype Row = Row(id: string, system: int, warehouse: string, code: string, name: string)

  datatype Inventory = Inventory(rows: seq<Row>)

  /** The loader reports one message naming both required columns, whichever is missing. */
  datatype LoadError = MissingRequired

  /** `dropna(how='all')`: a row whose every cell is empty is dropped. */
  predicate IsBlank(row: seq<string>) {
    forall j :: 0 <= j < |row| ==> row[j] == ""
  }

  function NotBlank(): seq<string> -> bool {
    (row: seq<string>) => !IsBlank(row)
  }

  /** Row `i` of a sheet that has both required columns; a missing optional column gives its default. */
  function ReadRow(sheet: Sheet, i: nat): Row
    requires i < |sheet.rows|
  {
    Row(Strip(Cell(sheet, i, IdColumn)),
        CoerceQuantity(Cell(sheet, i, QuantityColumn)),
        if HasColumn(sheet.header, WarehouseColumn) then Cell(sheet, i, WarehouseColumn) else DefaultWarehouse,
        if HasColumn(sheet.header, CodeColumn) then Cell(sheet, i, CodeColumn) else DefaultCode,
        if HasColumn(sheet.header, NameColumn) then Cell(sheet, i, NameColumn) else DefaultName)
  }

  /**
    `cargar_inventario`: blank rows are dropped, both required columns must be
    present, the optional columns get their defaults, quantities are coerced
    to integers (0 when not a number) and ids are stripped.
   */
  function Load(sheet: Sheet): (r: Result<Inventory, LoadError>)
    ensures r.Failure? <==> !HasColumn(sheet.header, IdColumn) || !HasColumn(sheet.header, QuantityColumn)
    ensures r.Success? ==> |r.value.rows| == Count(sheet.rows, NotBlank())
    ensures r.Success? ==> forall i :: 0 <= i < |r.value.rows| ==> IsStripped(r.value.rows[i].id)
    ensures r.Success? ==> forall i :: 0 <= i < |r.value.rows| ==>
              r.value.rows[i].id == Strip(Cell(Kept(sheet), i, IdColumn))
    ensures r.Success? ==> forall i :: 0 <= i < |r.value.rows| ==>
              r.value.rows[i].system == CoerceQuantity(Cell(Kept(sheet), i, QuantityColumn))
    ensures r.Success? ==> forall i :: 0 <= i < |r.value.rows| ==>
              r.value.rows[i].warehouse ==
                (if HasColumn(sheet.header, WarehouseColumn) then Cell(Kept(sheet), i, WarehouseColumn) else DefaultWarehouse)
    ensures r.Success? ==> forall i :: 0 <= i < |r.value.rows| ==>
              r.value.rows[i].code ==
                (if HasColumn(sheet.header, CodeColumn) then Cell(Kept(sheet), i, CodeColumn) else DefaultCode)
    ensures r.Success? ==> forall i :: 0 <= i < |r.value.rows| ==>
              r.value.rows[i].name ==
                (if HasColumn(sheet.header, NameColumn) then Cell(Kept(sheet), i, NameColumn) else DefaultName)
  {
    if !HasColumn(sheet.header, IdColumn) || !HasColumn(sheet.header, QuantityColumn) then Failure(MissingRequired)
    else Success(Inventory(ReadRows(Kept(sheet))))
  }

  /** The sheet without its blank rows. */
  function Kept(sheet: Sheet): (kept: Sheet)
    ensures kept.header == sheet.header && |kept.rows| == Count(sheet.rows, NotBlank())
    ensures forall x :: x in kept.rows <==> x in sheet.rows && !IsBlank(x)
  {
    Sheet(sheet.header, Filter(sheet.rows, NotBlank()))
  }

  /** Every row of an already filtered sheet, read in order. */
  function ReadRows(kept: Sheet): (rows: seq<Row>)
    ensures |rows| == |kept.rows|
    ensures forall i :: 0 <= i < |rows| ==> rows[i] == ReadRow(kept, i)
    ensures forall i :: 0 <= i < |rows| ==> IsStripped(rows[i].id)
  {
    var rows := seq(|kept.rows|, i requires 0 <= i < |kept.rows| => ReadRow(kept, i));
    assert forall i :: 0 <= i < |rows| ==> IsStripped(rows[i].id) by {
      forall i | 0 <= i < |rows| ensures IsStripped(rows[i].id) {
        StripIsStripped(Cell(kept, i, IdColumn));
      }
    }
    rows
  }

  /** A reference sheet written from an inventory: all five columns, quantities written with `str`. */
  function Render(inv: Inventory): Sheet {
    Sheet(FullHeader,
          seq(|inv.rows|, i requires 0 <= i < |inv.rows| =>
            var row := inv.rows[i];
            [row.id, IntToString(row.system), row.warehouse, row.code, row.name]))
  }

  lemma ReadRendered(inv: Inventory, i: nat)
    requires i < |inv.rows| && IsStripped(inv.rows[i].id)
    ensures ReadRow(Render(inv), i) == inv.rows[i]
  {
    FullHeaderColumns();
    StripOfStripped(inv.rows[i].id);
    QuantityRoundTrip(inv.rows[i].system);
  }

  /** A sheet with all five columns and no blank row loads every row, in order. */
  lemma LoadFullHeader(sheet: Sheet)
    requires sheet.header == FullHeader
    requires forall i :: 0 <= i < |sheet.rows| ==> NotBlank()(sheet.rows[i])
    ensures Load(sheet) == Success(Inventory(ReadRows(sheet)))
  {
    FullHeaderColumns();
    assert HasColumn(sheet.header, IdColumn) && HasColumn(sheet.header, QuantityColumn);
    FilterAll(sheet.rows, NotBlank());
    assert Kept(sheet) == sheet;
  }

  /** Every rendered row has a quantity cell, so none is blank. */
  lemma RenderNotBlank(inv: Inventory)
    ensures forall i :: 0 <= i < |Render(inv).rows| ==> NotBlank()(Render(inv).rows[i])
  {
    var sheet := Render(inv);
    forall i | 0 <= i < |sheet.rows| ensures NotBlank()(sheet.rows[i]) {
      assert sheet.rows[i][1] != "";
    }
  }

  lemma RenderedRows(inv: Inventory)
    requires forall i :: 0 <= i < |inv.rows| ==> IsStripped(inv.rows[i].id)
    ensures ReadRows(Render(inv)) == inv.rows
  {
    var rows := ReadRows(Render(inv));
    forall i | 0 <= i < |inv.rows| ensures rows[i] == inv.rows[i] {
      ReadRendered(inv, i);
    }
  }

  /** Loading a sheet written from an inventory with stripped ids gives that inventory back. */
  lemma LoadRender(inv: Inventory)
    requires forall i :: 0 <= i < |inv.rows| ==> IsStripped(inv.rows[i].id)
    ensures Load(Render(inv)) == Success(inv)
  {
    RenderNotBlank(inv);
    LoadFullHeader(Render(inv));
    RenderedRows(inv);
  }

  /** The comparison key of an id: stripped, then upper-cased. */
  function Key(id: string): string {
    Upper(Strip(id))
  }

  /** What `buscar_pallet` reports. */
  datatype Info =
    | Found(warehouse: string, code: string, name: string, system: int)
    | NotFound

  function InfoOf(row: Row): Info {
    Found(Strip(row.warehouse), Strip(row.code), Strip(row.name), row.system)
  }

  function KeyMatches(key: string): Row -> bool {
    (row: Row) => Key(row.id) == key
  }

  /** Row `k` is the first row whose key equals the query's key. */
  predicate IsFirstKeyMatch(rows: seq<Row>, id: string, k: nat) {
    && k < |rows|
    && Key(rows[k].id) == Key(id)
    && forall j :: 0 <= j < k ==> Key(rows[j].id) != Key(id)
  }

  /**
    `buscar_pallet`: nothing without an inventory or for the empty id;
    otherwise the first row whose stripped, upper-cased id equals the
    stripped, upper-cased query, or `NotFound`.
   */
  function Lookup(inv: Option<Inventory>, id: string): (r: Option<Info>)
    ensures r.None? <==> inv.None? || id == ""
    ensures r == Some(NotFound) <==>
              inv.Some? && id != "" && forall k :: 0 <= k < |inv.value.rows| ==> Key(inv.value.rows[k].id) != Key(id)
    ensures r.Some? && r.value.Found? ==>
              exists k: nat :: IsFirstKeyMatch(inv.value.rows, id, k) && r.value == InfoOf(inv.value.rows[k])
  {
    if inv.None? || id == "" then None
    else
      var rows := inv.value.rows;
      match FirstIndex(rows, KeyMatches(Key(id)))
      case None =>
        assert forall k :: 0 <= k < |rows| ==> !KeyMatches(Key(id))(rows[k]);
        Some(NotFound)
      case Some(k) =>
        assert IsFirstKeyMatch(rows, id, k) by {
          assert forall j :: 0 <= j < k ==> !KeyMatches(Key(id))(rows[j]);
        }
        Some(InfoOf(rows[k]))
  }

  /** Whitespace typed around an id does not change what the lookup finds. */
  lemma LookupIgnoresPadding(inv: Option<Inventory>, id: string, before: string, after: string)
    requires AllSpace(before) && AllSpace(after) && id != ""
    ensures Lookup(inv, before + id + after) == Lookup(inv, id)
  {
    StripPadded(before, id, after);
  }

  /** Lower-casing never turns a non-space character into a space. */
  lemma LowerKeepsStripped(s: string)
    requires IsStripped(s)
    ensures IsStripped(Lower(s))
  {
  }

  /** Typing a stripped id in lower case finds what the id itself finds. */
  lemma LookupIgnoresCase(inv: Option<Inventory>, id: string)
    requires IsStripped(id) && id != ""
    ensures Lookup(inv, Lower(id)) == Lookup(inv, id)
  {
    LowerKeepsStripped(id);
    StripOfStripped(id);
    StripOfStripped(Lower(id));
    UpperOfLower(id);
  }

  /** A one-row reference inventory used by the scenarios. */
  const SampleInventory: Inventory := Inventory([Row("PLT001", 50, "A-001", "ART001", "Producto Ejemplo 1")])

  /** A lower-case query with a trailing space finds the upper-case id. */
  lemma LookupScenario()
    ensures Strip("plt001 ") == "plt001"
    ensures Lookup(Some(SampleInventory), "plt001 ") == Some(Found("A-001", "ART001", "Producto Ejemplo 1", 50))
  {
    var row := SampleInventory.rows[0];
    assert IsStripped("plt001");
    assert AllSpace("") && AllSpace(" ");
    StripUnique("", "plt001", " ");
    assert "" + "plt001" + " " == "plt001 ";
    assert Lower("PLT001") == "plt001";
    UpperOfLower("PLT001");
    StripOfStripped("PLT001");
    assert Key("plt001 ") == Key("PLT001");
    assert KeyMatches(Key("plt001 "))(row);
    assert FirstIndex([row], KeyMatches(Key("plt001 "))) == Some(0);
    StripOfStripped("A-001");
    StripOfStripped("ART001");
    StripOfStripped("Producto Ejemplo 1");
    assert InfoOf(row) == Found("A-001", "ART001", "Producto Ejemplo 1", 50);
  }

  /** An id that is not in the inventory under any case is reported as not found. */
  lemma UnknownScenario()
    ensures Strip("PLT999") == "PLT999"
    ensures Lookup(Some(SampleInventory), "PLT999") == Some(NotFound)
  {
    SampleKey();
    UnknownKey();
    assert Key(SampleInventory.rows[0].id) != Key("PLT999");
  }

  lemma SampleKey()
    ensures Key("PLT001") == "PLT001"
  {
    UpperKey("PLT001");
  }

  lemma UnknownKey()
    ensures Strip("PLT999") == "PLT999" && Key("PLT999") == "PLT999"
  {
    UpperKey("PLT999");
  }

  /** A stripped id of upper-case letters and digits is its own key. */
  lemma UpperKey(id: string)
    requires IsStripped(id) && IsUpperAlnum(id)
    ensures Key(id) == id
  {
    StripOfStripped(id);
    UpperOfUpperAlnum(id);
  }
}

=== FILE: api_session.dfy ===
/**
  The FastAPI tool's state and endpoints (fastapi_app.py): the loaded
  inventory, the list of counted pallets and the `total_processed` counter,
  with the handlers that upload an inventory, add a pallet, clear the session
  and export it. Every handler is a function from the old state to the new
  state and its response; the clock is a caller-supplied stamp.
 */
module ApiSession {
  import opened Wrappers
  import opened Seqs
  import opened Text
  import opened Sheet
  import opened Tally
  import opened ApiInventory

  /**
    One counted pallet as `add_pallet` stores it. The id is stored stripped;
    an unmatched pallet has no system quantity and "N/A" in its three
    descriptive fields. The counted quantity is whatever integer the form sent.
   */
  datatype Record = Record(
    slip: string,
    id: string,
    code: string,
    name: string,
    warehouse: string,
    counted: int,
    system: Option<int>,
    diff: int,
    stamp: nat,
    found: bool)

  /**
    `add_pallet`'s record: a found pallet takes its descriptive fields and
    system quantity from the lookup and its difference is counted minus system;
    otherwise the difference is the counted quantity itself.
   */
  function NewRecord(inv: Option<Inventory>, slip: string, id: string, counted: int, stamp: nat): (r: Record)
    ensures r.slip == slip && r.id == Strip(id) && r.counted == counted && r.stamp == stamp
    ensures r.found <==> r.system.Some?
    ensures r.diff + r.system.GetOr(0) == counted
    ensures r.found <==> Lookup(inv, id).Some? && Lookup(inv, id).value.Found?
    ensures r.found ==>
              && r.system == Some(Lookup(inv, id).value.system)
              && r.diff == counted - Lookup(inv, id).value.system
              && r.warehouse == Lookup(inv, id).value.warehouse
              && r.code == Lookup(inv, id).value.code
              && r.name == Lookup(inv, id).value.name
    ensures !r.found ==>
              r.system.None? && r.diff == counted
              && r.warehouse == NotAvailable && r.code == NotAvailable && r.name == NotAvailable
  {
    match Lookup(inv, id)
    case Some(Found(warehouse, code, name, system)) =>
      Record(slip, Strip(id), code, name, warehouse, counted, Some(system), counted - system, stamp, true)
    case _ =>
      Record(slip, Strip(id), NotAvailable, NotAvailable, NotAvailable, counted, None, counted, stamp, false)
  }

  /** The four kinds of status message `add_pallet` answers with. */
  datatype StatusKind = Success | Warning | Error | Info

  /** The status of an added pallet: its kind and the number of units the message shows. */
  datatype Status = Status(kind: StatusKind, units: int)

  /**
    The status message: an unmatched pallet is reported as info with the counted
    quantity, whatever its difference; a found pallet is a success showing the
    counted quantity when the difference is 0, a warning showing the surplus
    when it is positive and an error showing the shortfall's absolute size.
   */
  function StatusOf(r: Record): (st: Status)
    ensures st.kind == Info <==> !r.found
    ensures st.kind == StatusKind.Success <==> r.found && r.diff == 0
    ensures st.kind == Warning <==> r.found && r.diff > 0
    ensures st.kind == Error <==> r.found && r.diff < 0
    ensures st.kind in {StatusKind.Success, Info} ==> st.units == r.counted
    ensures st.kind in {Warning, Error} ==> st.units > 0 && (st.units == r.diff || st.units == -r.diff)
  {
    if !r.found then Status(Info, r.counted)
    else if r.diff == 0 then Status(StatusKind.Success, r.counted)
    else if r.diff > 0 then Status(Warning, r.diff)
    else Status(Error, -r.diff)
  }

  function DiffOf(): Record -> int {
    (r: Record) => r.diff
  }

  function Unmatched(): Record -> bool {
    (r: Record) => r.system.None?
  }

  /** The statistics the endpoints return: the five counts and the precision. */
  datatype Figures = Figures(stats: Stats, precision: real)

  /**
    `calcular_estadisticas`: all zero for an empty session; otherwise the sign
    counts split the records, not-found is at most all of them, and the
    precision is exact records as a percentage of all records.
   */
  function SessionFigures(s: seq<Record>): (f: Figures)
    ensures |s| == 0 ==> f == Figures(Stats(0, 0, 0, 0, 0), 0.0)
    ensures f.stats.total == |s| && f.stats.exact + f.stats.surplus + f.stats.shortfall == f.stats.total
    ensures f.stats.notFound <= f.stats.total
    ensures f.precision == Precision(f.stats.exact, f.stats.total)
  {
    var st := Statistics(s, DiffOf(), Unmatched());
    Figures(st, Precision(st.exact, st.total))
  }

  /** The application state: the inventory, the counted pallets and the processed counter. */
  datatype State = State(inventory: Option<Inventory>, records: seq<Record>, processed: nat)

  /** The state the server starts in. */
  const Initial: State := State(None, [], 0)

  /** The counter tracks the number of counted pallets. */
  predicate Consistent(st: State) {
    st.processed == |st.records|
  }

  /** `add_pallet`'s answer: the status and the statistics after the addition. */
  datatype Added = Added(state: State, status: Status, figures: Figures)

  /**
    `add_pallet`: one record with the stripped id goes at the end, nothing
    before it changes, the counter goes up by one and the inventory stays.
   */
  function AddPallet(st: State, slip: string, id: string, counted: int, stamp: nat): (a: Added)
    ensures a.state.inventory == st.inventory
    ensures |a.state.records| == |st.records| + 1 && a.state.records[..|st.records|] == st.records
    ensures a.state.records[|st.records|] == NewRecord(st.inventory, slip, id, counted, stamp)
    ensures a.state.records[|st.records|].id == Strip(id)
    ensures a.state.processed == st.processed + 1
    ensures a.status == StatusOf(NewRecord(st.inventory, slip, id, counted, stamp))
    ensures a.figures == SessionFigures(a.state.records)
  {
    var r := NewRecord(st.inventory, slip, id, counted, stamp);
    var records := st.records + [r];
    Added(State(st.inventory, records, st.processed + 1), StatusOf(r), SessionFigures(records))
  }

  /**
    The status and the statistics agree: the added pallet raises the count its
    status names by one (a not-found pallet raises not-found), and the total by one.
   */
  lemma AddPalletCounts(st: State, slip: string, id: string, counted: int, stamp: nat)
    ensures var a := AddPallet(st, slip, id, counted, stamp);
      var before, after := SessionFigures(st.records).stats, a.figures.stats;
      && after.total == before.total + 1
      && (a.status.kind == StatusKind.Success ==> after.exact == before.exact + 1 && after.notFound == before.notFound)
      && (a.status.kind == Warning ==> after.surplus == before.surplus + 1 && after.notFound == before.notFound)
      && (a.status.kind == Error ==> after.shortfall == before.shortfall + 1 && after.notFound == before.notFound)
      && (a.status.kind == Info ==> after.notFound == before.notFound + 1)
  {
    var r := NewRecord(st.inventory, slip, id, counted, stamp);
    StatisticsAppend(st.records, r, DiffOf(), Unmatched());
  }

  /** `clear_all`: no records and a zero counter; the inventory stays loaded. */
  function ClearAll(st: State): (r: State)
    ensures r.inventory == st.inventory && |r.records| == 0 && r.processed == 0
    ensures SessionFigures(r.records) == Figures(Stats(0, 0, 0, 0, 0), 0.0)
  {
    State(st.inventory, [], 0)
  }

  /** `upload_inventory`'s answer: the number of rows loaded, or the loader's error. */
  datatype Uploaded = Uploaded(state: State, response: Result<nat, LoadError>)

  /** A loaded sheet replaces the inventory; a rejected one leaves the state as it was. The session is kept either way. */
  function UploadInventory(st: State, sheet: Sheet): (u: Uploaded)
    ensures u.response.Success? <==> Load(sheet).Success?
    ensures u.response.Success? ==>
              u.state == State(Some(Load(sheet).value), st.records, st.processed)
              && u.response.value == |Load(sheet).value.rows|
    ensures u.response.Failure? ==> u.state == st
  {
    match Load(sheet)
    case Success(inv) => Uploaded(State(Some(inv), st.records, st.processed), Result.Success(|inv.rows|))
    case Failure(e) => Uploaded(st, Failure(e))
  }

  /** `search_pallet`: the lookup's answer, with "not found" standing in for no answer at all. */
  function SearchPallet(st: State, id: string): (i: Info)
    ensures i == Info.NotFound <==> Lookup(st.inventory, id) in {None, Some(Info.NotFound)}
    ensures i.Found? ==> Lookup(st.inventory, id) == Some(i)
  {
    match Lookup(st.inventory, id)
    case None => Info.NotFound
    case Some(info) => info
  }

  datatype ExportError = NothingToExport

  /** What the export writes: every record, and the summary sheet's figures. */
  datatype Export = Export(records: seq<Record>, summary: Figures)

  /** `export_excel`: an empty session has nothing to export; otherwise the records and their figures. */
  function ExportExcel(st: State): (r: Result<Export, ExportError>)
    ensures r.Failure? <==> |st.records| == 0
    ensures r.Success? ==> r.value.records == st.records && r.value.summary.stats.total == |st.records| > 0
    ensures r.Success? ==> r.value.summary == SessionFigures(st.records)
  {
    if |st.records| == 0 then Failure(NothingToExport)
    else Result.Success(Export(st.records, SessionFigures(st.records)))
  }

  /** The requests the server answers, with the inputs the handlers read. */
  datatype Request =
    | UploadRequest(sheet: Sheet)
    | SearchRequest(id: string)
    | AddRequest(slip: string, id: string, counted: int, stamp: nat)
    | ClearRequest
    | ExportRequest

  /**
    The form fields `add_pallet` declares as required: FastAPI answers 422,
    without running the handler, when the slip or the id arrives empty.
   */
  predicate FormComplete(slip: string, id: string) {
    slip != "" && id != ""
  }

  /**
    The state after one request. Searches and exports change nothing, an add
    with an empty slip or id is refused before it reaches the handler, and
    every other add appends exactly one record.
   */
  function Step(st: State, req: Request): (r: State)
    ensures req.SearchRequest? || req.ExportRequest? ==> r == st
    ensures req.AddRequest? && !FormComplete(req.slip, req.id) ==> r == st
    ensures req.AddRequest? ==>
              (|r.records| == |st.records| + 1 <==> FormComplete(req.slip, req.id))
    ensures req.AddRequest? && FormComplete(req.slip, req.id) ==>
              r.records == st.records + [NewRecord(st.inventory, req.slip, req.id, req.counted, req.stamp)]
    ensures req.ClearRequest? ==> |r.records| == 0 && r.inventory == st.inventory
  {
    match req
    case UploadRequest(sheet) => UploadInventory(st, sheet).state
    case SearchRequest(_) => st
    case AddRequest(slip, id, counted, stamp) =>
      if FormComplete(slip, id) then
        var a := AddPallet(st, slip, id, counted, stamp);
        assert a.state.records == st.records + [a.state.records[|st.records|]];
        a.state
      else st
    case ClearRequest => ClearAll(st)
    case ExportRequest => st
  }

  /** The state after a run of requests, in order. */
  function Run(st: State, reqs: seq<Request>): State
    decreases |reqs|
  {
    if |reqs| == 0 then st else Run(Step(st, reqs[0]), reqs[1..])
  }

  /** Every request keeps the counter equal to the number of records. */
  lemma StepKeepsConsistent(st: State, req: Request)
    requires Consistent(st)
    ensures Consistent(Step(st, req))
  {
  }

  /** The number of records after a run: clearing restarts at 0, an accepted add adds one, nothing else changes it. */
  function RecordsAfter(n: nat, reqs: seq<Request>): nat
    decreases |reqs|
  {
    if |reqs| == 0 then n
    else
      var m := match reqs[0]
        case AddRequest(slip, id, _, _) => if FormComplete(slip, id) then n + 1 else n
        case ClearRequest => 0
        case _ => n;
      RecordsAfter(m, reqs[1..])
  }

  /**
    From any consistent state a run of requests stays consistent, and both the
    counter and the number of records equal the accepted adds since the last clear.
   */
  lemma {:induction false} RunKeepsConsistent(st: State, reqs: seq<Request>)
    requires Consistent(st)
    ensures Consistent(Run(st, reqs))
    ensures Run(st, reqs).processed == RecordsAfter(st.processed, reqs)
    decreases |reqs|
  {
    if |reqs| > 0 {
      StepKeepsConsistent(st, reqs[0]);
      RunKeepsConsistent(Step(st, reqs[0]), reqs[1..]);
    }
  }

  /** The server's counter always equals the number of counted pallets. */
  lemma ServerConsistent(reqs: seq<Request>)
    ensures Consistent(Run(Initial, reqs))
  {
    RunKeepsConsistent(Initial, reqs);
  }

  /**
    The results chart of the home page draws the statistics' exact, surplus,
    shortfall and not-found counts as slices of one whole, but an unmatched
    pallet counted 0 is both exact and not found.
   */
  lemma ChartSlicesOverlap()
    ensures var s := [NewRecord(None, "T1", "PLT404", 0, 0)];
      var st := SessionFigures(s).stats;
      st.total == 1 && st.exact == 1 && st.notFound == 1
      && st.exact + st.surplus + st.shortfall + st.notFound == st.total + 1
  {
    var s := [NewRecord(None, "T1", "PLT404", 0, 0)];
    assert s[..0] == [];
  }

  /** The chart's slices as a partition: every record in exactly one slice. */
  function ChartSlices(s: seq<Record>): (d: Distribution)
    ensures d.exact + d.surplus + d.shortfall + d.notFound == |s|
    ensures d.notFound == SessionFigures(s).stats.notFound
    ensures SessionFigures(s).stats.notFound == 0 ==>
              d == Distribution(SessionFigures(s).stats.exact, SessionFigures(s).stats.surplus,
                                SessionFigures(s).stats.shortfall, 0)
  {
    Distribute(s, DiffOf(), Unmatched())
  }

  /**
    Adding one more pallet puts it in exactly one corrected slice: not found
    when the inventory does not know it, otherwise by the sign of its difference.
   */
  lemma ChartSlicesAppend(s: seq<Record>, x: Record)
    ensures var before, after := ChartSlices(s), ChartSlices(s + [x]);
      && after.notFound == before.notFound + (if x.system.None? then 1 else 0)
      && after.exact == before.exact + (if x.system.Some? && x.diff == 0 then 1 else 0)
      && after.surplus == before.surplus + (if x.system.Some? && x.diff > 0 then 1 else 0)
      && after.shortfall == before.shortfall + (if x.system.Some? && x.diff < 0 then 1 else 0)
  {
    DistributeAppend(s, x, DiffOf(), Unmatched());
  }

  /** A pallet typed in lower case with a trailing space, counted exactly, is a success and an exact record. */
  lemma ExactScenario()
    ensures var a := AddPallet(State(Some(SampleInventory), [], 0), "1", "plt001 ", 50, 0);
      && a.state.records == [Record("1", "plt001", "ART001", "Producto Ejemplo 1", "A-001", 50, Some(50), 0, 0, true)]
      && a.status == Status(StatusKind.Success, 50)
      && a.figures == Figures(Stats(1, 1, 0, 0, 0), 100.0)
  {
    LookupScenario();
    var r := NewRecord(Some(SampleInventory), "1", "plt001 ", 50, 0);
    StatisticsAppend([], r, DiffOf(), Unmatched());
    assert [] + [r] == [r];
  }

  /** An unknown pallet is reported as info, and its difference is its count. */
  lemma UnknownScenario()
    ensures var a := AddPallet(State(Some(SampleInventory), [], 0), "2", "PLT999", 10, 0);
      && a.state.records == [UnknownRecord]
      && a.status == Status(Info, 10)
      && a.figures.stats == Stats(1, 0, 1, 0, 1)
  {
    UnknownRecordBuilt();
    StatisticsAppend([], UnknownRecord, DiffOf(), Unmatched());
    assert [] + [UnknownRecord] == [UnknownRecord];
  }

  const UnknownRecord: Record := Record("2", "PLT999", NotAvailable, NotAvailable, NotAvailable, 10, None, 10, 0, false)

  lemma UnknownRecordBuilt()
    ensures NewRecord(Some(SampleInventory), "2", "PLT999", 10, 0) == UnknownRecord
  {
    ApiInventory.UnknownScenario();
  }
}

=== FILE: app_inventory.dfy ===
/**
  The Streamlit tool's reference inventory (app.py): the loader's validation and
  defaulting (`cargar_inventario`) and the pallet lookup (`buscar_info_pallet`).
  The lookup compares stripped ids and is case-sensitive.
 */
module AppInventory {
  import opened Wrappers
  import opened Seqs
  import opened Text
  import opened Sheet

  /**
    One reference row after loading. The id and descriptive cells are kept as
    read; `system` is the coerced quantity. `code` and `name` only mean something
    when the inventory has that column.
   */
  datatype Row = Row(id: string, system: int, warehouse: string, code: string, name: string)

  datatype Inventory = Inventory(hasCode: bool, hasName: bool, rows: seq<Row>)

  datatype LoadError = MissingColumn(column: string)

  /** Row `i` of a sheet that has both required columns. */
  function ReadRow(sheet: Sheet, i: nat, hasWarehouse: bool): Row
    requires i < |sheet.rows|
  {
    Row(Cell(sheet, i, IdColumn),
        CoerceQuantity(Cell(sheet, i, QuantityColumn)),
        if hasWarehouse then Cell(sheet, i, WarehouseColumn) else DefaultWarehouse,
        Cell(sheet, i, CodeColumn),
        Cell(sheet, i, NameColumn))
  }

  /**
    `cargar_inventario`: the required columns are checked in order, the first
    missing one is reported, a missing warehouse column is filled with the
    default, and every quantity is coerced to an integer (0 when it is not a number).
    Every row is kept; ids and the other cells are kept as read.
   */
  function Load(sheet: Sheet): (r: Result<Inventory, LoadError>)
    ensures !HasColumn(sheet.header, IdColumn) <==> r == Failure(MissingColumn(IdColumn))
    ensures (HasColumn(sheet.header, IdColumn) && !HasColumn(sheet.header, QuantityColumn))
              <==> r == Failure(MissingColumn(QuantityColumn))
    ensures r.Success? <==> HasColumn(sheet.header, IdColumn) && HasColumn(sheet.header, QuantityColumn)
    ensures r.Success? ==> |r.value.rows| == |sheet.rows|
    ensures r.Success? ==> r.value.hasCode == HasColumn(sheet.header, CodeColumn)
    ensures r.Success? ==> r.value.hasName == HasColumn(sheet.header, NameColumn)
    ensures r.Success? ==> forall i :: 0 <= i < |sheet.rows| ==>
              r.value.rows[i].system == CoerceQuantity(Cell(sheet, i, QuantityColumn))
    ensures r.Success? ==> forall i :: 0 <= i < |sheet.rows| ==> r.value.rows[i].id == Cell(sheet, i, IdColumn)
    ensures r.Success? && !HasColumn(sheet.header, WarehouseColumn) ==>
              forall i :: 0 <= i < |sheet.rows| ==> r.value.rows[i].warehouse == DefaultWarehouse
    ensures r.Success? && HasColumn(sheet.header, WarehouseColumn) ==>
              forall i :: 0 <= i < |sheet.rows| ==> r.value.rows[i].warehouse == Cell(sheet, i, WarehouseColumn)
    ensures r.Success? && r.value.hasCode ==>
              forall i :: 0 <= i < |sheet.rows| ==> r.value.rows[i].code == Cell(sheet, i, CodeColumn)
    ensures r.Success? && r.value.hasName ==>
              forall i :: 0 <= i < |sheet.rows| ==> r.value.rows[i].name == Cell(sheet, i, NameColumn)
  {
    if !HasColumn(sheet.header, IdColumn) then Failure(MissingColumn(IdColumn))
    else if !HasColumn(sheet.header, QuantityColumn) then Failure(MissingColumn(QuantityColumn))
    else
      var hasWarehouse := HasColumn(sheet.header, WarehouseColumn);
      Success(Inventory(
        HasColumn(sheet.header, CodeColumn),
        HasColumn(sheet.header, NameColumn),
        ReadRows(sheet, hasWarehouse)))
  }

  /** Every row of the sheet, read in order. */
  function ReadRows(sheet: Sheet, hasWarehouse: bool): (rows: seq<Row>)
    ensures |rows| == |sheet.rows|
    ensures forall i :: 0 <= i < |rows| ==> rows[i] == ReadRow(sheet, i, hasWarehouse)
  {
    seq(|sheet.rows|, i requires 0 <= i < |sheet.rows| => ReadRow(sheet, i, hasWarehouse))
  }

  /** What a successful lookup reports: warehouse, article code, product name, system quantity. */
  datatype Match = Match(warehouse: string, code: string, name: string, system: int)

  /** The row matches a query whose stripped form is `key` (exact, case-sensitive). */
  function KeyIs(key: string): Row -> bool {
    (row: Row) => Strip(row.id) == key
  }

  /** Row `k` is the first row whose stripped id equals the stripped query. */
  predicate IsFirstMatch(rows: seq<Row>, id: string, k: nat) {
    && k < |rows|
    && Strip(rows[k].id) == Strip(id)
    && forall j :: 0 <= j < k ==> Strip(rows[j].id) != Strip(id)
  }

  /** The fields the lookup reads from a matched row; an absent optional column reads as "N/A". */
  function MatchOf(inv: Inventory, row: Row): Match {
    Match(Strip(row.warehouse),
          if inv.hasCode then Strip(row.code) else NotAvailable,
          if inv.hasName then Strip(row.name) else NotAvailable,
          row.system)
  }

  /**
    `buscar_info_pallet`: nothing without an inventory or for the empty id;
    otherwise the first row whose stripped id equals the stripped query.
   */
  function Lookup(inv: Option<Inventory>, id: string): (m: Option<Match>)
    ensures inv.None? || id == "" ==> m.None?
    ensures inv.Some? && id != "" ==>
              (m.Some? <==> exists k :: 0 <= k < |inv.value.rows| && Strip(inv.value.rows[k].id) == Strip(id))
    ensures m.Some? ==> exists k: nat :: IsFirstMatch(inv.value.rows, id, k) && m.value == MatchOf(inv.value, inv.value.rows[k])
  {
    if inv.None? || id == "" then None
    else
      var rows := inv.value.rows;
      match FirstIndex(rows, KeyIs(Strip(id)))
      case None =>
        assert forall k :: 0 <= k < |rows| ==> !KeyIs(Strip(id))(rows[k]);
        None
      case Some(k) =>
        assert IsFirstMatch(rows, id, k) by {
          assert forall j :: 0 <= j < k ==> !KeyIs(Strip(id))(rows[j]);
        }
        Some(MatchOf(inv.value, rows[k]))
  }

  /** Whitespace typed around an id does not change what the lookup finds. */
  lemma LookupIgnoresPadding(inv: Option<Inventory>, id: string, before: string, after: string)
    requires AllSpace(before) && AllSpace(after) && id != ""
    ensures Lookup(inv, before + id + after) == Lookup(inv, id)
  {
    StripPadded(before, id, after);
  }

  /** The lookup is case-sensitive: a lower-case query misses an upper-case id. */
  lemma LookupIsCaseSensitive()
    ensures Lookup(Some(Inventory(true, true, [Row("PLT001", 50, "A-001", "ART001", "Producto Ejemplo 1")])), "plt001").None?
    ensures Lookup(Some(Inventory(true, true, [Row("PLT001", 50, "A-001", "ART001", "Producto Ejemplo 1")])), "PLT001 ")
            == Some(Match("A-001", "ART001", "Producto Ejemplo 1", 50))
  {
    var inv := Inventory(true, true, [Row("PLT001", 50, "A-001", "ART001", "Producto Ejemplo 1")]);
    StripOfStripped("PLT001");
    StripOfStripped("plt001");
    StripOfStripped("A-001");
    StripOfStripped("ART001");
    StripOfStripped("Producto Ejemplo 1");
    assert AllSpace(" ") && AllSpace("");
    StripUnique("", "PLT001", " ");
    assert "" + "PLT001" + " " == "PLT001 ";
  }

  /** A reference sheet written from an inventory: all five columns, quantities written with `str`. */
  function Render(inv: Inventory): Sheet {
    Sheet(FullHeader,
          seq(|inv.rows|, i requires 0 <= i < |inv.rows| =>
            var row := inv.rows[i];
            [row.id, IntToString(row.system), row.warehouse, row.code, row.name]))
  }

  lemma ReadRendered(inv: Inventory, i: nat)
    requires i < |inv.rows|
    ensures ReadRow(Render(inv), i, true) == inv.rows[i]
  {
    FullHeaderColumns();
    QuantityRoundTrip(inv.rows[i].system);
  }

  /** A sheet with all five columns loads every row, with the warehouse, code and name read from the sheet. */
  lemma LoadFullHeader(sheet: Sheet)
    requires sheet.header == FullHeader
    ensures Load(sheet) == Success(Inventory(true, true, ReadRows(sheet, true)))
  {
    FullHeaderColumns();
    assert HasColumn(sheet.header, IdColumn) && HasColumn(sheet.header, QuantityColumn);
    assert HasColumn(sheet.header, WarehouseColumn);
    assert HasColumn(sheet.header, CodeColumn) && HasColumn(sheet.header, NameColumn);
  }

  /** Loading a sheet written from an inventory that has every column gives that inventory back. */
  lemma LoadRender(inv: Inventory)
    requires inv.hasCode && inv.hasName
    ensures Load(Render(inv)) == Success(inv)
  {
    var sheet := Render(inv);
    LoadFullHeader(sheet);
    var rows := ReadRows(sheet, true);
    forall i | 0 <= i < |inv.rows| ensures rows[i] == inv.rows[i] {
      ReadRendered(inv, i);
    }
    assert rows == inv.rows;
  }
}

=== FILE: app_report.dfy ===
/**
  The summary sheet of the Streamlit tool's Excel report (`generar_reporte_excel`
  in app.py). The counted records are left-joined with the inventory on stripped
  ids; joined rows are found, the others not found; found rows are exact or
  discrepancies according to the recomputed difference, counted minus the
  record's own system quantity. Workbook layout and cell formats are not modelled.
 */
module AppReport {
  import opened Wrappers
  import opened Seqs
  import opened Text
  import opened Tally
  import opened AppInventory
  import opened AppSession
  import opened AppStats

  /** One row of the left join: a counted record and the inventory row it met, if any. */
  datatype Joined = Joined(record: Record, row: Option<Row>)

  /** The inventory rows a record joins with: every row whose stripped id equals the record's stripped id. */
  function Partners(inv: Inventory, r: Record): (ms: seq<Row>)
    ensures |ms| == Count(inv.rows, KeyIs(Strip(r.id)))
    ensures forall m :: m in ms <==> m in inv.rows && Strip(m.id) == Strip(r.id)
  {
    Filter(inv.rows, KeyIs(Strip(r.id)))
  }

  /** The join rows of one record: one per partner, or a single unmatched row when it has none. */
  function JoinOne(inv: Inventory, r: Record): (j: seq<Joined>)
    ensures |j| == if |Partners(inv, r)| == 0 then 1 else |Partners(inv, r)|
    ensures forall k :: 0 <= k < |j| ==> j[k].record == r
    ensures forall k :: 0 <= k < |j| ==> (j[k].row.None? <==> |Partners(inv, r)| == 0)
    ensures forall k :: 0 <= k < |j| && j[k].row.Some? ==>
              j[k].row.value in inv.rows && Strip(j[k].row.value.id) == Strip(r.id)
  {
    var ms := Partners(inv, r);
    if |ms| == 0 then [Joined(r, None)]
    else
      assert forall k :: 0 <= k < |ms| ==> ms[k] in ms;
      seq(|ms|, k requires 0 <= k < |ms| => Joined(r, Some(ms[k])))
  }

  /** The record of each join row, in order. */
  function Records(j: seq<Joined>): (rs: seq<Record>)
    ensures |rs| == |j| && forall k :: 0 <= k < |j| ==> rs[k] == j[k].record
  {
    seq(|j|, k requires 0 <= k < |j| => j[k].record)
  }

  /** pandas' left merge of the records with the inventory, in record order: no record is lost. */
  function Join(inv: Inventory, s: seq<Record>): (j: seq<Joined>)
    ensures |j| >= |s|
    ensures forall k :: 0 <= k < |j| ==> j[k].record in s
    ensures forall i :: 0 <= i < |s| ==> s[i] in Records(j)
    ensures forall k :: 0 <= k < |j| && j[k].row.Some? ==>
              j[k].row.value in inv.rows && Strip(j[k].row.value.id) == Strip(j[k].record.id)
  {
    if |s| == 0 then []
    else
      var init, head := Join(inv, s[..|s| - 1]), JoinOne(inv, s[|s| - 1]);
      JoinStep(inv, s, s[..|s| - 1], init, head);
      init + head
  }

  /** The join of the earlier records followed by the last record's rows is a join of the whole session. */
  lemma JoinStep(inv: Inventory, s: seq<Record>, before: seq<Record>, init: seq<Joined>, head: seq<Joined>)
    requires |s| > 0 && before == s[..|s| - 1]
    requires |init| >= |before|
    requires forall k :: 0 <= k < |init| ==> init[k].record in before
    requires forall i :: 0 <= i < |before| ==> before[i] in Records(init)
    requires forall k :: 0 <= k < |init| && init[k].row.Some? ==>
               init[k].row.value in inv.rows && Strip(init[k].row.value.id) == Strip(init[k].record.id)
    requires |head| > 0 && forall k :: 0 <= k < |head| ==> head[k].record == s[|s| - 1]
    requires forall k :: 0 <= k < |head| && head[k].row.Some? ==>
               head[k].row.value in inv.rows && Strip(head[k].row.value.id) == Strip(s[|s| - 1].id)
    ensures |init + head| >= |s|
    ensures forall k :: 0 <= k < |init + head| ==> (init + head)[k].record in s
    ensures forall i :: 0 <= i < |s| ==> s[i] in Records(init + head)
    ensures forall k :: 0 <= k < |init + head| && (init + head)[k].row.Some? ==>
              (init + head)[k].row.value in inv.rows && Strip((init + head)[k].row.value.id) == Strip((init + head)[k].record.id)
  {
    var last, j := s[|s| - 1], init + head;
    assert before + [last] == s;
    forall k | 0 <= k < |j| ensures j[k].record in s {
      if k < |init| {
        assert j[k] == init[k];
        assert init[k].record in before;
      } else {
        assert j[k] == head[k - |init|];
      }
    }
    JoinKeepsRecords(before, last, init, head);
  }

  /** Appending the last record's rows to a join that holds every earlier record gives a join that holds every record. */
  lemma JoinKeepsRecords(before: seq<Record>, last: Record, init: seq<Joined>, head: seq<Joined>)
    requires |head| > 0 && head[0].record == last
    requires forall i :: 0 <= i < |before| ==> before[i] in Records(init)
    ensures forall i :: 0 <= i < |before + [last]| ==> (before + [last])[i] in Records(init + head)
  {
    var rs := Records(init + head);
    forall i | 0 <= i < |before + [last]| ensures (before + [last])[i] in rs {
      if i == |before| {
        assert rs[|init|] == head[0].record;
      } else {
        var k :| 0 <= k < |init| && Records(init)[k] == before[i];
        assert rs[k] == init[k].record;
      }
    }
  }

  /** `diferencia_calc`: counted minus the record's system quantity; `None` stands for pandas' NaN. */
  function DiffCalc(j: Joined): Option<int> {
    match j.record.system
    case None => None
    case Some(v) => Some(j.record.counted - v)
  }

  function IsFound(): Joined -> bool {
    (j: Joined) => j.row.Some?
  }

  function IsNotFound(): Joined -> bool {
    (j: Joined) => j.row.None?
  }

  function IsExactRow(): Joined -> bool {
    (j: Joined) => j.row.Some? && DiffCalc(j) == Some(0)
  }

  /** NaN differs from 0, so a found row without a system quantity is a discrepancy. */
  function IsDiscrepancy(): Joined -> bool {
    (j: Joined) => j.row.Some? && DiffCalc(j) != Some(0)
  }

  /** NaN is neither above nor below 0. */
  function IsSurplusRow(): Joined -> bool {
    (j: Joined) => j.row.Some? && DiffCalc(j).Some? && DiffCalc(j).value > 0
  }

  function IsShortfallRow(): Joined -> bool {
    (j: Joined) => j.row.Some? && DiffCalc(j).Some? && DiffCalc(j).value < 0
  }

  function IsSignedDiscrepancy(): Joined -> bool {
    (j: Joined) => j.row.Some? && DiffCalc(j).Some? && DiffCalc(j).value != 0
  }

  /** The figures of the "Resumen Ejecutivo" sheet (the report date is left out). */
  datatype Summary = Summary(
    counted: nat,
    found: nat,
    exact: nat,
    discrepancies: nat,
    notFound: nat,
    precision: real,
    surplus: nat,
    shortfall: nat)

  /**
    The report's summary: no report for an empty session; otherwise found and
    not-found rows make up the join, found rows are exact or discrepancies,
    surplus and shortfall rows are discrepancies, and the precision is exact
    rows as a percentage of found rows (0 when nothing was found).
   */
  function Report(inv: Inventory, s: seq<Record>): (r: Option<Summary>)
    ensures r.None? <==> |s| == 0
    ensures r.Some? ==> r.value.counted == |s|
    ensures r.Some? ==> r.value.found + r.value.notFound == |Join(inv, s)| >= |s|
    ensures r.Some? ==> r.value.exact + r.value.discrepancies == r.value.found
    ensures r.Some? ==> r.value.surplus + r.value.shortfall <= r.value.discrepancies
    ensures r.Some? ==> 0.0 <= r.value.precision <= 100.0
    ensures r.Some? ==> r.value.precision == Precision(r.value.exact, r.value.found)
  {
    if |s| == 0 then None
    else
      var j := Join(inv, s);
      var found, exact := Count(j, IsFound()), Count(j, IsExactRow());
      JoinCounts(j);
      var precision := Precision(exact, found);
      Some(Summary(|s|, found, exact, Count(j, IsDiscrepancy()), Count(j, IsNotFound()),
                   precision, Count(j, IsSurplusRow()), Count(j, IsShortfallRow())))
  }

  /** How the summary's counts over any join relate. */
  lemma JoinCounts(j: seq<Joined>)
    ensures Count(j, IsFound()) + Count(j, IsNotFound()) == |j|
    ensures Count(j, IsExactRow()) + Count(j, IsDiscrepancy()) == Count(j, IsFound())
    ensures Count(j, IsSurplusRow()) + Count(j, IsShortfallRow()) <= Count(j, IsDiscrepancy())
    ensures Count(j, IsExactRow()) <= Count(j, IsFound())
  {
    CountComplement(j, IsFound(), IsNotFound());
    CountSplit(j, IsFound(), IsExactRow(), IsDiscrepancy());
    CountSplit(j, IsSignedDiscrepancy(), IsSurplusRow(), IsShortfallRow());
    CountMonotonic(j, IsSignedDiscrepancy(), IsDiscrepancy());
  }

  /** No two inventory rows have the same stripped id. */
  predicate UniqueIds(inv: Inventory) {
    forall a, b :: 0 <= a < b < |inv.rows| ==> Strip(inv.rows[a].id) != Strip(inv.rows[b].id)
  }

  lemma {:induction false} AtMostOnePartner(rows: seq<Row>, key: string)
    requires forall a, b :: 0 <= a < b < |rows| ==> Strip(rows[a].id) != Strip(rows[b].id)
    ensures Count(rows, KeyIs(key)) <= 1
  {
    if |rows| > 0 {
      var init := rows[..|rows| - 1];
      AtMostOnePartner(init, key);
      if KeyIs(key)(rows[|rows| - 1]) {
        CountNone(init, KeyIs(key));
      }
    }
  }

  lemma {:induction false} JoinLengthUnique(inv: Inventory, s: seq<Record>)
    requires UniqueIds(inv)
    ensures |Join(inv, s)| == |s|
  {
    if |s| > 0 {
      JoinLengthUnique(inv, s[..|s| - 1]);
      AtMostOnePartner(inv.rows, Strip(s[|s| - 1].id));
    }
  }

  /** Without repeated inventory ids the join has one row per record, so found and not found add up to the records. */
  lemma ReportRowsUnique(inv: Inventory, s: seq<Record>)
    requires UniqueIds(inv) && |s| > 0
    ensures Report(inv, s).value.found + Report(inv, s).value.notFound == |s|
  {
    JoinLengthUnique(inv, s);
  }

  /** The record has no partner in the inventory. */
  function NoPartner(inv: Inventory): Record -> bool {
    (r: Record) => |Partners(inv, r)| == 0
  }

  lemma {:induction false} NotFoundRows(inv: Inventory, s: seq<Record>)
    ensures Count(Join(inv, s), IsNotFound()) == Count(s, NoPartner(inv))
  {
    if |s| > 0 {
      var init, last := s[..|s| - 1], s[|s| - 1];
      var head := JoinOne(inv, last);
      NotFoundRows(inv, init);
      CountConcat(Join(inv, init), head, IsNotFound());
      if |Partners(inv, last)| == 0 {
        assert head == [Joined(last, None)];
        assert head[..0] == [];
      } else {
        CountNone(head, IsNotFound());
      }
    }
  }

  /**
    The session was built against this inventory: every record agrees with a
    fresh lookup and has a non-empty id (the add button insists on one).
   */
  predicate BuiltFrom(inv: Inventory, s: seq<Record>) {
    AllFresh(Some(inv), s) && forall i :: 0 <= i < |s| ==> s[i].id != ""
  }

  lemma PartnerMeansMatched(inv: Inventory, r: Record)
    requires Fresh(Some(inv), r) && r.id != ""
    ensures r.system.Some? <==> |Partners(inv, r)| > 0
  {
    FreshBalances(Some(inv), r);
    CountPositive(inv.rows, KeyIs(Strip(r.id)));
    assert forall k :: 0 <= k < |inv.rows| ==>
      KeyIs(Strip(r.id))(inv.rows[k]) == (Strip(inv.rows[k].id) == Strip(r.id));
  }

  /** For a session built from the inventory, the report's not-found rows are the statistics' not-found pallets. */
  lemma ReportNotFoundAgrees(inv: Inventory, s: seq<Record>)
    requires BuiltFrom(inv, s) && |s| > 0
    ensures Report(inv, s).value.notFound == SessionStats(s).notFound
  {
    NotFoundRows(inv, s);
    forall i | 0 <= i < |s| ensures NoPartner(inv)(s[i]) == Unmatched()(s[i]) {
      PartnerMeansMatched(inv, s[i]);
    }
    CountCongruent(s, NoPartner(inv), Unmatched());
  }

  /**
    For a session built from the inventory every found row has a system
    quantity, so the surplus and shortfall rows are exactly the discrepancies.
   */
  lemma ReportSignsSplit(inv: Inventory, s: seq<Record>)
    requires BuiltFrom(inv, s) && |s| > 0
    ensures Report(inv, s).value.surplus + Report(inv, s).value.shortfall == Report(inv, s).value.discrepancies
  {
    var j := Join(inv, s);
    forall k | 0 <= k < |j| ensures IsSignedDiscrepancy()(j[k]) == IsDiscrepancy()(j[k]) {
      if j[k].row.Some? {
        var r := j[k].record;
        var i :| 0 <= i < |s| && s[i] == r;
        PartnerMeansMatched(inv, r);
        assert j[k].row.value in Partners(inv, r);
      }
    }
    CountCongruent(j, IsSignedDiscrepancy(), IsDiscrepancy());
    CountSplit(j, IsSignedDiscrepancy(), IsSurplusRow(), IsShortfallRow());
  }

  /** A one-element sequence counts 1 or 0. */
  lemma CountSingle<T>(x: T, p: T -> bool)
    ensures Count([x], p) == if p(x) then 1 else 0
  {
    CountAppend([], x, p);
    assert [] + [x] == [x];
  }

  /**
    When every record contributes to a join count exactly what it contributes to
    a record count, the two counts agree.
   */
  lemma {:induction false} JoinCountAgrees(inv: Inventory, s: seq<Record>, p: Joined -> bool, q: Record -> bool)
    requires forall i :: 0 <= i < |s| ==> Count(JoinOne(inv, s[i]), p) == if q(s[i]) then 1 else 0
    ensures Count(Join(inv, s), p) == Count(s, q)
  {
    if |s| > 0 {
      var init, last := s[..|s| - 1], s[|s| - 1];
      assert forall i :: 0 <= i < |init| ==> init[i] == s[i];
      JoinCountAgrees(inv, init, p, q);
      JoinLast(inv, s);
      CountConcat(Join(inv, init), JoinOne(inv, last), p);
    }
  }

  /** The join of a non-empty session is the join of all but its last record, then the last record's rows. */
  lemma JoinLast(inv: Inventory, s: seq<Record>)
    requires |s| > 0
    ensures Join(inv, s) == Join(inv, s[..|s| - 1]) + JoinOne(inv, s[|s| - 1])
  {
  }

  /**
    Against an inventory without repeated ids, a record built from it joins
    exactly one row, found exactly when the record has a system quantity, and
    the recomputed difference is the record's own.
   */
  lemma SingleJoin(inv: Inventory, r: Record)
    requires UniqueIds(inv) && Fresh(Some(inv), r) && r.id != ""
    ensures JoinOne(inv, r) == [Joined(r, if r.system.Some? then Some(Partners(inv, r)[0]) else None)]
    ensures DiffCalc(JoinOne(inv, r)[0]) == if r.system.Some? then Some(r.diff) else None
  {
    PartnerCount(inv, r);
    FreshBalances(Some(inv), r);
    OnePartnerJoin(inv, r);
  }

  /** A record with at most one partner joins exactly one row. */
  lemma OnePartnerJoin(inv: Inventory, r: Record)
    requires |Partners(inv, r)| == if r.system.Some? then 1 else 0
    ensures JoinOne(inv, r) == [Joined(r, if r.system.Some? then Some(Partners(inv, r)[0]) else None)]
  {
  }

  /** A record built from an inventory without repeated ids has one partner when matched and none otherwise. */
  lemma PartnerCount(inv: Inventory, r: Record)
    requires UniqueIds(inv) && Fresh(Some(inv), r) && r.id != ""
    ensures |Partners(inv, r)| == if r.system.Some? then 1 else 0
  {
    AtMostOnePartner(inv.rows, Strip(r.id));
    PartnerMeansMatched(inv, r);
  }

  /** The report's test for one outcome, row by row. */
  function RowOutcome(o: Outcome): Joined -> bool {
    match o
    case Exact => IsExactRow()
    case Surplus => IsSurplusRow()
    case Shortfall => IsShortfallRow()
    case NotFound => IsNotFound()
  }

  /** The single join row of a record built from the inventory has the record's outcome. */
  lemma OutcomeRow(inv: Inventory, r: Record, o: Outcome)
    requires UniqueIds(inv) && Fresh(Some(inv), r) && r.id != ""
    ensures Count(JoinOne(inv, r), RowOutcome(o)) == if HasOutcome(o, DiffOf(), Unmatched())(r) then 1 else 0
  {
    SingleJoin(inv, r);
    var x := JoinOne(inv, r)[0];
    CountSingle(x, RowOutcome(o));
    assert RowOutcome(o)(x) == HasOutcome(o, DiffOf(), Unmatched())(r) by {
      match o
      case Exact =>
      case Surplus =>
      case Shortfall =>
      case NotFound =>
    }
  }

  lemma OutcomeRows(inv: Inventory, s: seq<Record>, o: Outcome)
    requires BuiltFrom(inv, s) && UniqueIds(inv)
    ensures Count(Join(inv, s), RowOutcome(o)) == Count(s, HasOutcome(o, DiffOf(), Unmatched()))
  {
    forall i | 0 <= i < |s|
      ensures Count(JoinOne(inv, s[i]), RowOutcome(o)) == if HasOutcome(o, DiffOf(), Unmatched())(s[i]) then 1 else 0
    {
      OutcomeRow(inv, s[i], o);
    }
    JoinCountAgrees(inv, s, RowOutcome(o), HasOutcome(o, DiffOf(), Unmatched()));
  }

  /**
    For a session built from an inventory without repeated ids, the report's
    exact, surplus, shortfall and not-found rows are the chart's corrected
    slices: each counted pallet lands in exactly one of them.
   */
  lemma ReportMatchesSlices(inv: Inventory, s: seq<Record>)
    requires BuiltFrom(inv, s) && UniqueIds(inv) && |s| > 0
    ensures var rep, d := Report(inv, s).value, ChartSlices(s);
      rep.exact == d.exact && rep.surplus == d.surplus && rep.shortfall == d.shortfall && rep.notFound == d.notFound
  {
    ReportOutcomes(inv, s);
    SliceOutcomes(s);
    OutcomeRows(inv, s, Outcome.Exact);
    OutcomeRows(inv, s, Outcome.Surplus);
    OutcomeRows(inv, s, Outcome.Shortfall);
    OutcomeRows(inv, s, Outcome.NotFound);
  }

  /** The report's four outcome counts, read as counts of join rows. */
  lemma ReportOutcomes(inv: Inventory, s: seq<Record>)
    requires |s| > 0
    ensures var rep, j := Report(inv, s).value, Join(inv, s);
      && rep.exact == Count(j, RowOutcome(Outcome.Exact))
      && rep.surplus == Count(j, RowOutcome(Outcome.Surplus))
      && rep.shortfall == Count(j, RowOutcome(Outcome.Shortfall))
      && rep.notFound == Count(j, RowOutcome(Outcome.NotFound))
  {
    assert RowOutcome(Outcome.Exact) == IsExactRow();
    assert RowOutcome(Outcome.Surplus) == IsSurplusRow();
    assert RowOutcome(Outcome.Shortfall) == IsShortfallRow();
    assert RowOutcome(Outcome.NotFound) == IsNotFound();
  }

  /** The chart's four slices, read as counts of records. */
  lemma SliceOutcomes(s: seq<Record>)
    ensures var d := ChartSlices(s);
      && d.exact == Count(s, HasOutcome(Outcome.Exact, DiffOf(), Unmatched()))
      && d.surplus == Count(s, HasOutcome(Outcome.Surplus, DiffOf(), Unmatched()))
      && d.shortfall == Count(s, HasOutcome(Outcome.Shortfall, DiffOf(), Unmatched()))
      && d.notFound == Count(s, HasOutcome(Outcome.NotFound, DiffOf(), Unmatched()))
  {
  }
}

=== FILE: app_session.dfy ===
/**
  The Streamlit tool's counting session (app.py): the list of counted pallets
  kept in `st.session_state.conteo_fisico` and the handlers that change it —
  adding a pallet, the duplicate dialog's three choices, deleting, editing,
  clearing and searching. A session is a sequence of records; every handler
  returns the new sequence. The inventory is fixed for the life of a session
  (loading another file clears the session), so it is a parameter here.
 */
module AppSession {
  import opened Wrappers
  import opened Seqs
  import opened Text
  import opened Sheet
  import opened AppInventory

  /**
    One counted pallet. The descriptive fields and `system` are `None` when the
    pallet was not found in the inventory. `stamp` stands for the time the record
    was created, which the caller supplies.
   */
  datatype Record = Record(
    slip: string,
    id: string,
    code: Option<string>,
    name: Option<string>,
    warehouse: Option<string>,
    counted: nat,
    system: Option<int>,
    diff: int,
    stamp: nat)

  /** A looked-up field as stored in a record: the "N/A" marker is stored as the empty text. */
  function Blank(field: string): (r: string)
    ensures r == "" <==> field == "" || field == NotAvailable
    ensures r != "" ==> r == field
  {
    if field == NotAvailable then "" else field
  }

  /**
    `procesar_pallet`'s record: a fresh lookup of `id` supplies the descriptive
    fields and the system quantity, and the difference is the counted quantity
    minus the system quantity, an unmatched pallet counting as 0 in the system.
   */
  function MakeRecord(inv: Option<Inventory>, slip: string, id: string, counted: nat, stamp: nat): (r: Record)
    ensures r.slip == slip && r.id == id && r.counted == counted && r.stamp == stamp
    ensures r.system.None? <==> Lookup(inv, id).None?
    ensures r.system.None? ==> r.diff == counted && r.code.None? && r.name.None? && r.warehouse.None?
    ensures r.system.Some? ==> r.system.value == Lookup(inv, id).value.system && r.diff == counted - r.system.value
    ensures r.system.Some? ==>
              && r.code == Some(Blank(Lookup(inv, id).value.code))
              && r.name == Some(Blank(Lookup(inv, id).value.name))
              && r.warehouse == Some(Blank(Lookup(inv, id).value.warehouse))
  {
    var found := Lookup(inv, id);
    var system := if found.Some? then Some(found.value.system) else None;
    Record(slip, id,
           if found.Some? then Some(Blank(found.value.code)) else None,
           if found.Some? then Some(Blank(found.value.name)) else None,
           if found.Some? then Some(Blank(found.value.warehouse)) else None,
           counted, system, counted - system.GetOr(0), stamp)
  }

  /** The record is what a lookup against `inv` would build from its own slip, id, count and stamp. */
  predicate Fresh(inv: Option<Inventory>, r: Record) {
    r == MakeRecord(inv, r.slip, r.id, r.counted, r.stamp)
  }

  /** Every record of the session agrees with the inventory. */
  predicate AllFresh(inv: Option<Inventory>, s: seq<Record>) {
    forall i :: 0 <= i < |s| ==> Fresh(inv, s[i])
  }

  /** A fresh record's difference and system quantity add up to the counted quantity. */
  lemma FreshBalances(inv: Option<Inventory>, r: Record)
    requires Fresh(inv, r)
    ensures r.diff + r.system.GetOr(0) == r.counted
    ensures r.system.None? <==> Lookup(inv, r.id).None?
  {
  }

  /** `procesar_pallet`: the new record goes at the end and nothing before it changes. */
  function Process(inv: Option<Inventory>, s: seq<Record>, slip: string, id: string, counted: nat, stamp: nat)
    : (r: seq<Record>)
    ensures |r| == |s| + 1
    ensures r[..|s|] == s
    ensures r[|s|] == MakeRecord(inv, slip, id, counted, stamp)
  {
    s + [MakeRecord(inv, slip, id, counted, stamp)]
  }

  lemma ProcessKeepsFresh(inv: Option<Inventory>, s: seq<Record>, slip: string, id: string, counted: nat, stamp: nat)
    requires AllFresh(inv, s)
    ensures AllFresh(inv, Process(inv, s, slip, id, counted, stamp))
  {
    var r := Process(inv, s, slip, id, counted, stamp);
    assert forall i :: 0 <= i < |s| ==> r[i] == s[i];
  }

  /** The ids of the session's records, in order. */
  function Ids(s: seq<Record>): (r: seq<string>)
    ensures |r| == |s| && forall i :: 0 <= i < |s| ==> r[i] == s[i].id
  {
    seq(|s|, i requires 0 <= i < |s| => s[i].id)
  }

  /** The add button's duplicate test: the raw id, exactly as typed, is among the recorded ids. */
  function IsDuplicate(s: seq<Record>, id: string): (b: bool)
    ensures b <==> exists i :: 0 <= i < |s| && s[i].id == id
  {
    var ids := Ids(s);
    assert forall i :: 0 <= i < |s| ==> ids[i] == s[i].id;
    id in ids
  }

  function HasId(id: string): Record -> bool {
    (r: Record) => r.id == id
  }

  function OtherId(id: string): Record -> bool {
    (r: Record) => r.id != id
  }

  /** A duplicate test is exact: padding or a change of case makes a different id. */
  lemma DuplicateIsExact()
    ensures IsDuplicate([MakeRecord(None, "T1", "PLT001", 5, 0)], "PLT001")
    ensures !IsDuplicate([MakeRecord(None, "T1", "PLT001", 5, 0)], "PLT001 ")
    ensures !IsDuplicate([MakeRecord(None, "T1", "PLT001", 5, 0)], "plt001")
  {
    var s := [MakeRecord(None, "T1", "PLT001", 5, 0)];
    assert s[0].id == "PLT001";
  }

  /** The entry that is waiting while the duplicate dialog is open. */
  datatype Pending = Pending(slip: string, id: string, counted: nat)

  /** What pressing the add button leads to. */
  datatype Submission =
    | MissingFields
    | Duplicate(pending: Pending)
    | Added(session: seq<Record>)

  /**
    The add button: both the slip and the id must be non-empty; an id already
    in the session opens the duplicate dialog; otherwise the pallet is processed.
   */
  function Submit(inv: Option<Inventory>, s: seq<Record>, slip: string, id: string, counted: nat, stamp: nat)
    : (r: Submission)
    ensures r.MissingFields? <==> slip == "" || id == ""
    ensures r.Duplicate? <==> slip != "" && id != "" && exists i :: 0 <= i < |s| && s[i].id == id
    ensures r.Duplicate? ==> r.pending == Pending(slip, id, counted)
    ensures r.Added? ==> r.session == Process(inv, s, slip, id, counted, stamp)
  {
    if slip == "" || id == "" then MissingFields
    else if IsDuplicate(s, id) then Duplicate(Pending(slip, id, counted))
    else Added(Process(inv, s, slip, id, counted, stamp))
  }

  /** The duplicate dialog's buttons. */
  datatype Choice = Replace | AddAsNew | Cancel

  /** Replacing drops every record with the pending id and then processes the pending entry. */
  function ReplaceAll(inv: Option<Inventory>, s: seq<Record>, p: Pending, stamp: nat): (r: seq<Record>)
    ensures |r| > 0 && r[|r| - 1] == MakeRecord(inv, p.slip, p.id, p.counted, stamp)
    ensures |r| == |s| - Count(s, HasId(p.id)) + 1
    ensures Count(r, HasId(p.id)) == 1
    ensures Filter(r, OtherId(p.id)) == Filter(s, OtherId(p.id))
  {
    var kept := Filter(s, OtherId(p.id));
    var x := MakeRecord(inv, p.slip, p.id, p.counted, stamp);
    CountComplement(s, HasId(p.id), OtherId(p.id));
    assert forall i :: 0 <= i < |kept| ==> OtherId(p.id)(kept[i]) by {
      forall i | 0 <= i < |kept| ensures OtherId(p.id)(kept[i]) {
        assert kept[i] in kept;
      }
    }
    CountNone(kept, HasId(p.id));
    CountAppend(kept, x, HasId(p.id));
    FilterAll(kept, OtherId(p.id));
    FilterConcat(kept, [x], OtherId(p.id));
    assert Filter([x], OtherId(p.id)) == [] by {
      assert [x][..0] == [];
    }
    Process(inv, kept, p.slip, p.id, p.counted, stamp)
  }

  /**
    The duplicate dialog: Replace keeps exactly one record with the id, the new
    one, last, and leaves the other records as they were and in their order;
    Add-as-new appends one more record with the id; Cancel changes nothing.
   */
  function Resolve(inv: Option<Inventory>, s: seq<Record>, p: Pending, choice: Choice, stamp: nat): (r: seq<Record>)
    ensures choice.Replace? ==> Count(r, HasId(p.id)) == 1 && |r| > 0
    ensures choice.Replace? ==> r[|r| - 1] == MakeRecord(inv, p.slip, p.id, p.counted, stamp)
    ensures choice.Replace? ==> Filter(r, OtherId(p.id)) == Filter(s, OtherId(p.id))
    ensures choice.AddAsNew? ==> |r| == |s| + 1 && r[..|s|] == s
    ensures choice.AddAsNew? ==> r[|s|] == MakeRecord(inv, p.slip, p.id, p.counted, stamp)
    ensures choice.AddAsNew? ==> Count(r, HasId(p.id)) == Count(s, HasId(p.id)) + 1
    ensures choice.Cancel? ==> r == s
  {
    match choice
    case Replace => ReplaceAll(inv, s, p, stamp)
    case AddAsNew =>
      var r := Process(inv, s, p.slip, p.id, p.counted, stamp);
      assert r == s + [r[|s|]];
      CountAppend(s, r[|s|], HasId(p.id));
      r
    case Cancel => s
  }

  lemma ResolveKeepsFresh(inv: Option<Inventory>, s: seq<Record>, p: Pending, choice: Choice, stamp: nat)
    requires AllFresh(inv, s)
    ensures AllFresh(inv, Resolve(inv, s, p, choice, stamp))
  {
    var r := Resolve(inv, s, p, choice, stamp);
    match choice
    case Replace =>
      var kept := Filter(s, OtherId(p.id));
      assert forall i :: 0 <= i < |kept| ==> kept[i] in s by {
        forall i | 0 <= i < |kept| ensures kept[i] in s {
          assert kept[i] in kept;
        }
      }
      ProcessKeepsFresh(inv, kept, p.slip, p.id, p.counted, stamp);
    case AddAsNew =>
      ProcessKeepsFresh(inv, s, p.slip, p.id, p.counted, stamp);
    case Cancel =>
  }

  /** Why a delete or an edit did nothing. */
  datatype SessionError = OutOfRange

  /** `conteo_fisico.pop(i)`: exactly record `i` goes; the ones after it move up by one. */
  function Delete(s: seq<Record>, i: nat): (r: Result<seq<Record>, SessionError>)
    ensures r.Success? <==> i < |s|
    ensures r.Success? ==> |r.value| == |s| - 1
    ensures r.Success? ==> forall j :: 0 <= j < i ==> r.value[j] == s[j]
    ensures r.Success? ==> forall j :: i <= j < |r.value| ==> r.value[j] == s[j + 1]
    ensures r.Success? ==> multiset(r.value) + multiset{s[i]} == multiset(s)
  {
    if i < |s| then
      assert s == s[..i] + [s[i]] + s[i + 1..];
      Success(s[..i] + s[i + 1..])
    else Failure(OutOfRange)
  }

  /** Deleting a record takes exactly its contribution out of every count. */
  lemma DeleteCount(s: seq<Record>, i: nat, p: Record -> bool)
    requires i < |s|
    ensures Count(Delete(s, i).value, p) + (if p(s[i]) then 1 else 0) == Count(s, p)
  {
    CountRemoveAt(s, i, p);
  }

  lemma DeleteKeepsFresh(inv: Option<Inventory>, s: seq<Record>, i: nat)
    requires AllFresh(inv, s) && i < |s|
    ensures AllFresh(inv, Delete(s, i).value)
  {
  }

  /**
    Saving the edit dialog: record `i` is rebuilt from the new slip, id and count
    with a fresh lookup; it keeps its place and its creation stamp, and no other
    record changes.
   */
  function Edit(inv: Option<Inventory>, s: seq<Record>, i: nat, slip: string, id: string, counted: nat)
    : (r: Result<seq<Record>, SessionError>)
    ensures r.Success? <==> i < |s|
    ensures r.Success? ==> |r.value| == |s|
    ensures r.Success? ==> forall j :: 0 <= j < |s| && j != i ==> r.value[j] == s[j]
    ensures r.Success? ==> r.value[i] == MakeRecord(inv, slip, id, counted, s[i].stamp)
  {
    if i < |s| then Success(s[i := MakeRecord(inv, slip, id, counted, s[i].stamp)])
    else Failure(OutOfRange)
  }

  lemma EditKeepsFresh(inv: Option<Inventory>, s: seq<Record>, i: nat, slip: string, id: string, counted: nat)
    requires AllFresh(inv, s) && i < |s|
    ensures AllFresh(inv, Edit(inv, s, i, slip, id, counted).value)
  {
  }

  /** Saving the edit dialog without changing anything leaves a fresh session as it was. */
  lemma EditUnchanged(inv: Option<Inventory>, s: seq<Record>, i: nat)
    requires AllFresh(inv, s) && i < |s|
    ensures Edit(inv, s, i, s[i].slip, s[i].id, s[i].counted) == Success(s)
  {
    var x := s[i];
    assert Fresh(inv, x);
    assert s[i := x] == s;
  }

  /** "Limpiar Todo": the session becomes empty, so every count over it is zero. */
  function Clear(s: seq<Record>): (r: seq<Record>)
    ensures |r| == 0
    ensures forall p: Record -> bool :: Count(r, p) == 0
  {
    []
  }

  /** How pandas shows an absent field once the table is converted to text. */
  function Shown(field: Option<string>): string {
    match field
    case None => "None"
    case Some(v) => v
  }

  /** The texts of the results table's row `k` that the search box looks at. */
  function Texts(k: nat, r: Record): seq<string> {
    [NatToString(k), r.slip, r.id, Shown(r.code), Shown(r.name), Shown(r.warehouse),
     NatToString(r.counted), IntToString(r.diff)]
  }

  /** Some text of row `k` contains the term, ignoring case. */
  predicate RowMatches(k: nat, r: Record, term: string) {
    exists j :: 0 <= j < |Texts(k, r)| && ContainsIgnoringCase(Texts(k, r)[j], term)
  }

  /** The search term's letter case does not matter. */
  lemma RowMatchesLower(k: nat, r: Record, term: string)
    ensures RowMatches(k, r, Lower(term)) == RowMatches(k, r, term)
  {
    forall j | 0 <= j < |Texts(k, r)|
      ensures ContainsIgnoringCase(Texts(k, r)[j], Lower(term)) == ContainsIgnoringCase(Texts(k, r)[j], term)
    {
      ContainsLowerTerm(Texts(k, r)[j], term);
    }
  }

  /**
    The results table's search box: the positions of the rows that match the
    term, in table order. An empty term filters nothing.
   */
  method Search(s: seq<Record>, term: string) returns (hits: seq<nat>)
    ensures forall a, b :: 0 <= a < b < |hits| ==> hits[a] < hits[b]
    ensures forall k: nat :: k in hits <==> k < |s| && RowMatches(k, s[k], term)
    ensures term == "" ==> |hits| == |s|
  {
    hits := [];
    var k := 0;
    while k < |s|
      invariant k <= |s|
      invariant forall a, b :: 0 <= a < b < |hits| ==> hits[a] < hits[b]
      invariant forall j :: 0 <= j < |hits| ==> hits[j] < k
      invariant forall j: nat :: j in hits <==> j < k && RowMatches(j, s[j], term)
      invariant term == "" ==> |hits| == k
    {
      if term == "" {
        ContainsEmpty(Texts(k, s[k])[0]);
      }
      if RowMatches(k, s[k], term) {
        hits := hits + [k];
      }
      k := k + 1;
    }
  }
}

=== FILE: app_stats.dfy ===
/**
  The Streamlit tool's statistics (app.py): the five counts of
  `calcular_estadisticas`, the precision gauge, the error rate, the counting
  efficiency, the critical-pallet count and the per-warehouse summary.
 */
module AppStats {
  import opened Wrappers
  import opened Seqs
  import opened Tally
  import opened AppSession

  function DiffOf(): Record -> int {
    (r: Record) => r.diff
  }

  /** A record is not found when it carries no system quantity. */
  function Unmatched(): Record -> bool {
    (r: Record) => r.system.None?
  }

  /** `calcular_estadisticas` over the session. */
  function SessionStats(s: seq<Record>): (st: Stats)
    ensures |s| == 0 ==> st == Stats(0, 0, 0, 0, 0)
    ensures st.total == |s| && st.exact + st.surplus + st.shortfall == st.total
    ensures st.notFound <= st.total
    ensures st.notFound == 0 <==> forall i :: 0 <= i < |s| ==> s[i].system.Some?
  {
    CountPositive(s, Unmatched());
    Statistics(s, DiffOf(), Unmatched())
  }

  /**
    The results chart draws exact, surplus, shortfall and not-found as four
    slices of one whole, but a pallet that was not found and counted 0 is also
    exact: one record yields two slices.
   */
  lemma ChartSlicesOverlap()
    ensures var st := SessionStats([MakeRecord(None, "T1", "PLT404", 0, 0)]);
      st.total == 1 && st.exact == 1 && st.notFound == 1
      && st.exact + st.surplus + st.shortfall + st.notFound == st.total + 1
  {
    var s := [MakeRecord(None, "T1", "PLT404", 0, 0)];
    assert s[..0] == [];
  }

  /**
    Four pallets: one exact, one 5 over, one 3 short and one unknown pallet
    counted 4. The unknown pallet is also a surplus, so the sign counts still
    add up to the total while not-found counts it a second time.
   */
  lemma StatsScenario()
    ensures var s := [Record("1", "A", None, None, None, 7, Some(7), 0, 0),
                      Record("2", "B", None, None, None, 9, Some(4), 5, 0),
                      Record("3", "C", None, None, None, 2, Some(5), -3, 0),
                      Record("4", "D", None, None, None, 4, None, 4, 0)];
      && SessionStats(s) == Stats(4, 1, 2, 1, 1)
      && SessionPrecision(s) == 25.0
  {
    var a := Record("1", "A", None, None, None, 7, Some(7), 0, 0);
    var b := Record("2", "B", None, None, None, 9, Some(4), 5, 0);
    var c := Record("3", "C", None, None, None, 2, Some(5), -3, 0);
    var d := Record("4", "D", None, None, None, 4, None, 4, 0);
    StatisticsAppend([], a, DiffOf(), Unmatched());
    assert [] + [a] == [a];
    StatisticsAppend([a], b, DiffOf(), Unmatched());
    assert [a] + [b] == [a, b];
    StatisticsAppend([a, b], c, DiffOf(), Unmatched());
    assert [a, b] + [c] == [a, b, c];
    StatisticsAppend([a, b, c], d, DiffOf(), Unmatched());
    assert [a, b, c] + [d] == [a, b, c, d];
  }

  /** The chart's slices as a true partition of the session: each record in exactly one slice. */
  function ChartSlices(s: seq<Record>): (d: Distribution)
    ensures d.exact + d.surplus + d.shortfall + d.notFound == |s|
    ensures d.notFound == SessionStats(s).notFound
    ensures SessionStats(s).notFound == 0 ==>
              d == Distribution(SessionStats(s).exact, SessionStats(s).surplus, SessionStats(s).shortfall, 0)
  {
    Distribute(s, DiffOf(), Unmatched())
  }

  /**
    Counting one more pallet puts it in exactly one corrected slice: not found
    when it has no system quantity, otherwise exact, surplus or shortfall by
    the sign of its difference.
   */
  lemma ChartSlicesAppend(s: seq<Record>, x: Record)
    ensures var before, after := ChartSlices(s), ChartSlices(s + [x]);
      && after.notFound == before.notFound + (if x.system.None? then 1 else 0)
      && after.exact == before.exact + (if x.system.Some? && x.diff == 0 then 1 else 0)
      && after.surplus == before.surplus + (if x.system.Some? && x.diff > 0 then 1 else 0)
      && after.shortfall == before.shortfall + (if x.system.Some? && x.diff < 0 then 1 else 0)
  {
    DistributeAppend(s, x, DiffOf(), Unmatched());
  }

  /** The gauge's precision: exact pallets as a percentage of all pallets, 0 for an empty session. */
  function SessionPrecision(s: seq<Record>): (p: real)
    ensures 0.0 <= p <= 100.0
    ensures |s| == 0 ==> p == 0.0
    ensures |s| > 0 ==> p * (|s| as real) == (SessionStats(s).exact as real) * 100.0
  {
    var st := SessionStats(s);
    Precision(st.exact, st.total)
  }

  /** The error-rate metric: the share of pallets with a non-zero difference, 0 for an empty session. */
  function ErrorRate(s: seq<Record>): (e: real)
    ensures |s| == 0 ==> e == 0.0
    ensures |s| > 0 ==> e + SessionPrecision(s) == 100.0
    ensures |s| > 0 ==> e * (|s| as real) == ((SessionStats(s).surplus + SessionStats(s).shortfall) as real) * 100.0
  {
    var st := SessionStats(s);
    if st.total > 0 then
      PercentComplement(st.exact, st.total);
      Percent(st.total - st.exact, st.total)
    else 0.0
  }

  /**
    The counting-efficiency metric as written: all pallets over all pallets
    plus the not-found ones, 100 when both are 0.
   */
  function Efficiency(total: nat, notFound: nat): (e: real)
    ensures total + notFound == 0 ==> e == 100.0
    ensures total + notFound > 0 ==> e * ((total + notFound) as real) == (total as real) * 100.0
    ensures total > 0 && notFound <= total ==> 50.0 <= e <= 100.0
    ensures total > 0 && notFound <= total ==> (e == 50.0 <==> notFound == total)
    ensures total > 0 ==> (e == 100.0 <==> notFound == 0)
  {
    if total + notFound > 0 then Percent(total, total + notFound) else 100.0
  }

  /** Every record is unmatched exactly when every record counts as not found. */
  lemma AllUnmatched(s: seq<Record>)
    ensures (forall i :: 0 <= i < |s| ==> s[i].system.None?) <==> Count(s, Unmatched()) == |s|
  {
    if forall i :: 0 <= i < |s| ==> s[i].system.None? {
      CountEvery(s, Unmatched());
    } else {
      CountComplement(s, Unmatched(), Matched(Unmatched()));
      CountPositive(s, Matched(Unmatched()));
    }
  }

  /**
    Because not-found pallets are already part of the total, the efficiency of a
    non-empty session never drops below 50, and a session in which no pallet was
    found at all reports exactly 50.
   */
  lemma EfficiencyAtLeastHalf(s: seq<Record>)
    requires |s| > 0
    ensures 50.0 <= Efficiency(SessionStats(s).total, SessionStats(s).notFound) <= 100.0
    ensures (forall i :: 0 <= i < |s| ==> s[i].system.None?) <==>
              Efficiency(SessionStats(s).total, SessionStats(s).notFound) == 50.0
  {
    AllUnmatched(s);
  }

  /** A one-pallet session whose pallet is unknown to the inventory reports 50% efficiency. */
  lemma EfficiencyOfUnknownPallet()
    ensures var st := SessionStats([MakeRecord(None, "T1", "PLT404", 3, 0)]);
      Efficiency(st.total, st.notFound) == 50.0
  {
    var s := [MakeRecord(None, "T1", "PLT404", 3, 0)];
    EfficiencyAtLeastHalf(s);
  }

  /**
    The share of counted pallets that were found in the inventory, which is what
    the efficiency metric describes; 100 for an empty session.
   */
  function MatchRate(s: seq<Record>): (m: real)
    ensures 0.0 <= m <= 100.0
    ensures |s| == 0 ==> m == 100.0
    ensures |s| > 0 ==> m * (|s| as real) == ((|s| - SessionStats(s).notFound) as real) * 100.0
  {
    var st := SessionStats(s);
    if st.total > 0 then Percent(st.total - st.notFound, st.total) else 100.0
  }

  /** The match rate is 100 exactly when every pallet was found and 0 exactly when none was. */
  lemma MatchRateExtremes(s: seq<Record>)
    requires |s| > 0
    ensures MatchRate(s) == 100.0 <==> forall i :: 0 <= i < |s| ==> s[i].system.Some?
    ensures MatchRate(s) == 0.0 <==> forall i :: 0 <= i < |s| ==> s[i].system.None?
  {
    var st := SessionStats(s);
    AllUnmatched(s);
    assert MatchRate(s) == Percent(st.total - st.notFound, st.total);
  }

  /** Pallets whose difference exceeds 10 units either way. */
  function IsCritical(): Record -> bool {
    (r: Record) => r.diff > 10 || r.diff < -10
  }

  /**
    The critical-pallet metric: it is positive exactly when some pallet is more
    than 10 units off, and a critical pallet is always a surplus or a shortfall.
   */
  function CriticalCount(s: seq<Record>): (n: nat)
    ensures n > 0 <==> exists i :: 0 <= i < |s| && (s[i].diff > 10 || s[i].diff < -10)
    ensures n <= SessionStats(s).surplus + SessionStats(s).shortfall
  {
    CountMonotonic(s, IsCritical(), Discrepant(DiffOf()));
    CountSplit(s, Discrepant(DiffOf()), IsSurplus(DiffOf()), IsShortfall(DiffOf()));
    CountPositive(s, IsCritical());
    Count(s, IsCritical())
  }

  /** Counting one more pallet raises the critical count by one exactly when that pallet is more than 10 units off. */
  lemma CriticalAppend(s: seq<Record>, x: Record)
    ensures CriticalCount(s + [x]) == CriticalCount(s) + (if x.diff > 10 || x.diff < -10 then 1 else 0)
  {
    CountAppend(s, x, IsCritical());
  }

  /** The record belongs to warehouse `w`. */
  function InWarehouse(w: string): Record -> bool {
    (r: Record) => r.warehouse == Some(w)
  }

  function ExactIn(w: string): Record -> bool {
    (r: Record) => r.warehouse == Some(w) && r.diff == 0
  }

  /** The record carries a warehouse that is one of `ws`. */
  function InAnyOf(ws: seq<string>): Record -> bool {
    (r: Record) => r.warehouse.Some? && r.warehouse.value in ws
  }

  /** The warehouses of the session, each once, in order of first appearance; unmatched pallets have none. */
  function Warehouses(s: seq<Record>): (ws: seq<string>)
    ensures Distinct(ws)
    ensures forall w :: w in ws <==> exists i :: 0 <= i < |s| && s[i].warehouse == Some(w)
  {
    if |s| == 0 then []
    else
      var init, last := s[..|s| - 1], s[|s| - 1];
      var ws := Warehouses(init);
      assert forall i :: 0 <= i < |init| ==> s[i] == init[i];
      if last.warehouse.Some? && last.warehouse.value !in ws then ws + [last.warehouse.value] else ws
  }

  /** One row of the per-warehouse summary: pallets and exact pallets of one warehouse. */
  datatype Group = Group(warehouse: string, total: nat, exact: nat)

  /** The summary row of warehouse `w`; it has pallets exactly when some record carries `w`. */
  function GroupOf(s: seq<Record>, w: string): (g: Group)
    ensures g.warehouse == w && g.exact <= g.total
    ensures g.total > 0 <==> w in Warehouses(s)
  {
    CountMonotonic(s, ExactIn(w), InWarehouse(w));
    CountPositive(s, InWarehouse(w));
    Group(w, Count(s, InWarehouse(w)), Count(s, ExactIn(w)))
  }

  /**
    Counting one more pallet adds it to its own warehouse's group, and to that
    group's exact pallets when its difference is 0; every other group stays.
   */
  lemma GroupOfAppend(s: seq<Record>, x: Record, w: string)
    ensures GroupOf(s + [x], w).total == GroupOf(s, w).total + (if x.warehouse == Some(w) then 1 else 0)
    ensures GroupOf(s + [x], w).exact == GroupOf(s, w).exact + (if x.warehouse == Some(w) && x.diff == 0 then 1 else 0)
  {
    CountAppend(s, x, InWarehouse(w));
    CountAppend(s, x, ExactIn(w));
  }

  /**
    The per-warehouse summary (`groupby('almacen')`): one group per warehouse
    present in the session, each with at least one pallet and no more exact
    pallets than pallets.
   */
  function Groups(s: seq<Record>): (gs: seq<Group>)
    ensures |gs| == |Warehouses(s)|
    ensures forall k :: 0 <= k < |gs| ==> gs[k] == GroupOf(s, Warehouses(s)[k])
    ensures forall k :: 0 <= k < |gs| ==> 0 < gs[k].total && gs[k].exact <= gs[k].total
  {
    var ws := Warehouses(s);
    assert forall k :: 0 <= k < |ws| ==> Count(s, InWarehouse(ws[k])) > 0 by {
      forall k | 0 <= k < |ws| ensures Count(s, InWarehouse(ws[k])) > 0 {
        assert ws[k] in ws;
        CountPositive(s, InWarehouse(ws[k]));
      }
    }
    seq(|ws|, k requires 0 <= k < |ws| => GroupOf(s, ws[k]))
  }

  /** A group's precision: its exact pallets as a percentage of its pallets. */
  function GroupPrecision(g: Group): (p: real)
    requires 0 < g.total && g.exact <= g.total
    ensures 0.0 <= p <= 100.0
    ensures p * (g.total as real) == (g.exact as real) * 100.0
    ensures p == 100.0 <==> g.exact == g.total
  {
    Percent(g.exact, g.total)
  }

  function SumTotals(gs: seq<Group>): nat {
    if |gs| == 0 then 0 else SumTotals(gs[..|gs| - 1]) + gs[|gs| - 1].total
  }

  lemma {:induction false} SumTotalsOver(s: seq<Record>, ws: seq<string>)
    requires Distinct(ws)
    ensures SumTotals(seq(|ws|, k requires 0 <= k < |ws| => GroupOf(s, ws[k]))) == Count(s, InAnyOf(ws))
  {
    var gs := seq(|ws|, k requires 0 <= k < |ws| => GroupOf(s, ws[k]));
    if |ws| == 0 {
      CountNone(s, InAnyOf(ws));
    } else {
      var init, w := ws[..|ws| - 1], ws[|ws| - 1];
      assert gs[..|gs| - 1] == seq(|init|, k requires 0 <= k < |init| => GroupOf(s, init[k]));
      SumTotalsOver(s, init);
      assert forall v :: v in ws <==> v in init || v == w;
      CountSplit(s, InAnyOf(ws), InAnyOf(init), InWarehouse(w));
    }
  }

  /** The groups' pallets add up to the session's pallets that have a warehouse. */
  lemma GroupsCoverWarehoused(s: seq<Record>)
    ensures SumTotals(Groups(s)) == Count(s, (r: Record) => r.warehouse.Some?)
  {
    var ws := Warehouses(s);
    SumTotalsOver(s, ws);
    assert forall i :: 0 <= i < |s| ==> InAnyOf(ws)(s[i]) == s[i].warehouse.Some? by {
      forall i | 0 <= i < |s| ensures InAnyOf(ws)(s[i]) == s[i].warehouse.Some? {
        if s[i].warehouse.Some? {
          assert s[i].warehouse.value in ws;
        }
      }
    }
    CountCongruent(s, InAnyOf(ws), (r: Record) => r.warehouse.Some?);
  }
}

=== FILE: seqs.dfy ===
/**
  Counting, filtering and first-match search over sequences. Every statistic of
  the tool is a count of the records satisfying some condition, every conflict
  policy is a filter, and every lookup is a first match, so these are defined
  once here. Counts and filters recurse on the last element, which is the
  element an append adds.
 */
module Seqs {
  import opened Wrappers

  /** Number of elements of `s` that satisfy `p` (Python's `len([x for x in s if p(x)])`). */
  function Count<T>(s: seq<T>, p: T -> bool): (n: nat)
    ensures n <= |s|
  {
    if |s| == 0 then 0 else Count(s[..|s| - 1], p) + (if p(s[|s| - 1]) then 1 else 0)
  }

  /** The elements of `s` that satisfy `p`, in their original order. */
  function Filter<T(!new)>(s: seq<T>, p: T -> bool): (r: seq<T>)
    ensures |r| == Count(s, p)
    ensures forall x :: x in r <==> x in s && p(x)
  {
    if |s| == 0 then []
    else
      var init := Filter(s[..|s| - 1], p);
      assert forall x :: x in s <==> x in s[..|s| - 1] || x == s[|s| - 1];
      if p(s[|s| - 1]) then init + [s[|s| - 1]] else init
  }

  /** Index of the first element satisfying `p`, if any (pandas' `df[mask].iloc[0]`). */
  function FirstIndex<T>(s: seq<T>, p: T -> bool): (r: Option<nat>)
    ensures r.None? <==> forall i :: 0 <= i < |s| ==> !p(s[i])
    ensures r.Some? ==> r.value < |s| && p(s[r.value])
    ensures r.Some? ==> forall i :: 0 <= i < r.value ==> !p(s[i])
  {
    if |s| == 0 then None
    else if p(s[0]) then Some(0)
    else
      match FirstIndex(s[1..], p)
      case None => None
      case Some(k) => Some(k + 1)
  }

  /** True when no value occurs twice in `s`. */
  predicate Distinct<T(==)>(s: seq<T>) {
    forall i, j :: 0 <= i < j < |s| ==> s[i] != s[j]
  }

  /** Counting distributes over concatenation. */
  lemma {:induction false} CountConcat<T>(a: seq<T>, b: seq<T>, p: T -> bool)
    ensures Count(a + b, p) == Count(a, p) + Count(b, p)
  {
    if |b| == 0 {
      assert a + b == a;
    } else {
      assert (a + b)[..|a + b| - 1] == a + b[..|b| - 1];
      CountConcat(a, b[..|b| - 1], p);
    }
  }

  /** Appending one element adds one to the count exactly when it satisfies `p`. */
  lemma CountAppend<T>(s: seq<T>, x: T, p: T -> bool)
    ensures Count(s + [x], p) == Count(s, p) + (if p(x) then 1 else 0)
  {
    assert (s + [x])[..|s|] == s;
  }

  /** Filtering distributes over concatenation, so it keeps the relative order of what it keeps. */
  lemma {:induction false} FilterConcat<T(!new)>(a: seq<T>, b: seq<T>, p: T -> bool)
    ensures Filter(a + b, p) == Filter(a, p) + Filter(b, p)
  {
    if |b| == 0 {
      assert a + b == a;
    } else {
      assert (a + b)[..|a + b| - 1] == a + b[..|b| - 1];
      FilterConcat(a, b[..|b| - 1], p);
    }
  }

  /** The count is positive exactly when some element satisfies `p`. */
  lemma {:induction false} CountPositive<T>(s: seq<T>, p: T -> bool)
    ensures Count(s, p) > 0 <==> exists i :: 0 <= i < |s| && p(s[i])
  {
    if |s| > 0 {
      var init := s[..|s| - 1];
      CountPositive(init, p);
      if exists i :: 0 <= i < |init| && p(init[i]) {
        var i :| 0 <= i < |init| && p(init[i]);
        assert s[i] == init[i];
      }
      if exists i :: 0 <= i < |s| && p(s[i]) {
        var i :| 0 <= i < |s| && p(s[i]);
        if i < |init| {
          assert init[i] == s[i];
        }
      }
    }
  }

  /** When `a` and `b` never hold together and `whole` is their union, the counts add up. */
  lemma {:induction false} CountSplit<T>(s: seq<T>, whole: T -> bool, a: T -> bool, b: T -> bool)
    requires forall x :: whole(x) <==> a(x) || b(x)
    requires forall x :: !(a(x) && b(x))
    ensures Count(s, a) + Count(s, b) == Count(s, whole)
  {
    if |s| > 0 {
      CountSplit(s[..|s| - 1], whole, a, b);
    }
  }

  /** Two complementary conditions split the sequence between them. */
  lemma {:induction false} CountComplement<T>(s: seq<T>, p: T -> bool, q: T -> bool)
    requires forall x :: p(x) != q(x)
    ensures Count(s, p) + Count(s, q) == |s|
  {
    if |s| > 0 {
      CountComplement(s[..|s| - 1], p, q);
    }
  }

  /** A condition every element satisfies counts the whole sequence. */
  lemma {:induction false} CountEvery<T>(s: seq<T>, p: T -> bool)
    requires forall i :: 0 <= i < |s| ==> p(s[i])
    ensures Count(s, p) == |s|
  {
    if |s| > 0 {
      CountEvery(s[..|s| - 1], p);
    }
  }

  /** A condition no element satisfies counts nothing. */
  lemma {:induction false} CountNone<T>(s: seq<T>, p: T -> bool)
    requires forall i :: 0 <= i < |s| ==> !p(s[i])
    ensures Count(s, p) == 0
  {
    if |s| > 0 {
      CountNone(s[..|s| - 1], p);
    }
  }

  /** A condition that is weaker on every element counts at least as many elements. */
  lemma {:induction false} CountMonotonic<T>(s: seq<T>, p: T -> bool, q: T -> bool)
    requires forall i :: 0 <= i < |s| ==> p(s[i]) ==> q(s[i])
    ensures Count(s, p) <= Count(s, q)
  {
    if |s| > 0 {
      CountMonotonic(s[..|s| - 1], p, q);
    }
  }

  /** Conditions that agree on every element count the same. */
  lemma CountCongruent<T>(s: seq<T>, p: T -> bool, q: T -> bool)
    requires forall i :: 0 <= i < |s| ==> p(s[i]) == q(s[i])
    ensures Count(s, p) == Count(s, q)
  {
    CountMonotonic(s, p, q);
    CountMonotonic(s, q, p);
  }

  /** Filtering by a condition every element satisfies keeps the whole sequence. */
  lemma {:induction false} FilterAll<T(!new)>(s: seq<T>, p: T -> bool)
    requires forall i :: 0 <= i < |s| ==> p(s[i])
    ensures Filter(s, p) == s
  {
    if |s| > 0 {
      FilterAll(s[..|s| - 1], p);
      assert s == s[..|s| - 1] + [s[|s| - 1]];
    }
  }

  /** Removing the element at index `i` removes its contribution to every count. */
  lemma {:induction false} CountRemoveAt<T>(s: seq<T>, i: nat, p: T -> bool)
    requires i < |s|
    ensures Count(s[..i] + s[i + 1..], p) + (if p(s[i]) then 1 else 0) == Count(s, p)
  {
    var front, back := s[..i], s[i + 1..];
    assert s == (front + [s[i]]) + back;
    CountConcat(front, back, p);
    CountConcat(front + [s[i]], back, p);
    CountAppend(front, s[i], p);
  }
}

=== FILE: sheet.dfy ===
/**
  The reference spreadsheet as the loaders see it: a header row and data rows of
  text cells. Reading the workbook itself is outside the model; an empty cell is
  represented by the empty string. Both loaders strip the header names before
  looking for a column. A header that occurs twice after stripping is read here
  at its first occurrence; pandas would select both columns and the loader
  would then fail, a case this model does not cover.
 */
module Sheet {
  import opened Wrappers
  import opened Seqs
  import opened Text

  datatype Sheet = Sheet(header: seq<string>, rows: seq<seq<string>>)

  /** Column names the tool understands (required ones first). */
  const IdColumn: string := "Id de pallet"
  const QuantityColumn: string := "Inventario físico"
  const WarehouseColumn: string := "Almacén"
  const CodeColumn: string := "Código de artículo"
  const NameColumn: string := "Nombre del producto"

  /** The "not available" marker used for absent descriptive fields. */
  const NotAvailable: string := "N/A"

  /** Values filled in for a missing optional column. */
  const DefaultWarehouse: string := "Almacén General"
  const DefaultCode: string := NotAvailable
  const DefaultName: string := "Producto sin nombre"

  predicate HasColumn(header: seq<string>, name: string) {
    exists j :: 0 <= j < |header| && Strip(header[j]) == name
  }

  function NamedAs(name: string): string -> bool {
    (h: string) => Strip(h) == name
  }

  /** Position of the first header that strips to `name`. */
  function ColumnIndex(header: seq<string>, name: string): (r: Option<nat>)
    ensures r.None? <==> !HasColumn(header, name)
    ensures r.Some? ==> r.value < |header| && Strip(header[r.value]) == name
    ensures r.Some? ==> forall j :: 0 <= j < r.value ==> Strip(header[j]) != name
  {
    var r := FirstIndex(header, NamedAs(name));
    assert r.None? ==> forall j :: 0 <= j < |header| ==> !NamedAs(name)(header[j]);
    r
  }

  /** A header that strips to `name` at `k` and nowhere before is the column's position. */
  lemma ColumnAt(header: seq<string>, name: string, k: nat)
    requires k < |header| && Strip(header[k]) == name
    requires forall j :: 0 <= j < k ==> Strip(header[j]) != name
    ensures ColumnIndex(header, name) == Some(k)
  {
  }

  /** The header of a sheet with every column the loader knows, in the usual order. */
  const FullHeader: seq<string> := [IdColumn, QuantityColumn, WarehouseColumn, CodeColumn, NameColumn]

  /** The five column names are already stripped and pairwise different (their lengths differ). */
  lemma FullHeaderDistinct()
    ensures forall k :: 0 <= k < |FullHeader| ==> Strip(FullHeader[k]) == FullHeader[k]
    ensures forall j, k :: 0 <= j < k < |FullHeader| ==> FullHeader[j] != FullHeader[k]
  {
    StripOfStripped(IdColumn);
    StripOfStripped(QuantityColumn);
    StripOfStripped(WarehouseColumn);
    StripOfStripped(CodeColumn);
    StripOfStripped(NameColumn);
    assert |IdColumn| == 12 && |QuantityColumn| == 17 && |WarehouseColumn| == 7;
    assert |CodeColumn| == 18 && |NameColumn| == 19;
  }

  /** Each of the five columns is found at its own position of the full header. */
  lemma FullHeaderColumn(k: nat)
    requires k < |FullHeader|
    ensures ColumnIndex(FullHeader, FullHeader[k]) == Some(k)
  {
    FullHeaderDistinct();
    ColumnAt(FullHeader, FullHeader[k], k);
  }

  lemma FullHeaderColumns()
    ensures ColumnIndex(FullHeader, IdColumn) == Some(0)
    ensures ColumnIndex(FullHeader, QuantityColumn) == Some(1)
    ensures ColumnIndex(FullHeader, WarehouseColumn) == Some(2)
    ensures ColumnIndex(FullHeader, CodeColumn) == Some(3)
    ensures ColumnIndex(FullHeader, NameColumn) == Some(4)
  {
    FullHeaderColumn(0);
    FullHeaderColumn(1);
    FullHeaderColumn(2);
    FullHeaderColumn(3);
    FullHeaderColumn(4);
  }

  /** Cell `j` of a row; a row shorter than the header reads as empty there. */
  function CellAt(row: seq<string>, j: nat): string {
    if j < |row| then row[j] else ""
  }

  /** The text of row `i` under column `name` (empty if there is no such column). */
  function Cell(sheet: Sheet, i: nat, name: string): string
    requires i < |sheet.rows|
  {
    match ColumnIndex(sheet.header, name)
    case None => ""
    case Some(j) => CellAt(sheet.rows[i], j)
  }
}

=== FILE: tally.dfy ===
/**
  The session statistics both implementations compute (`calcular_estadisticas`
  in app.py and in fastapi_app.py): how many records there are, how many have a
  zero, positive or negative difference, and how many were not found in the
  inventory. Records are generic here; each implementation says how to read a
  record's difference and whether it was matched.
 */
module Tally {
  import opened Seqs

  datatype Stats = Stats(total: nat, exact: nat, surplus: nat, shortfall: nat, notFound: nat)

  function IsExact<R>(diff: R -> int): R -> bool {
    (r: R) => diff(r) == 0
  }

  function IsSurplus<R>(diff: R -> int): R -> bool {
    (r: R) => diff(r) > 0
  }

  function IsShortfall<R>(diff: R -> int): R -> bool {
    (r: R) => diff(r) < 0
  }

  function Discrepant<R>(diff: R -> int): R -> bool {
    (r: R) => diff(r) != 0
  }

  /**
    The five counts. Exact, surplus and shortfall split the records by the sign
    of their difference; not-found is counted separately and overlaps them.
   */
  function Statistics<R>(s: seq<R>, diff: R -> int, unmatched: R -> bool): (st: Stats)
    ensures |s| == 0 ==> st == Stats(0, 0, 0, 0, 0)
    ensures st.total == |s|
    ensures st.exact + st.surplus + st.shortfall == st.total
    ensures st.notFound <= st.total
  {
    var st := Stats(|s|, Count(s, IsExact(diff)), Count(s, IsSurplus(diff)), Count(s, IsShortfall(diff)), Count(s, unmatched));
    CountSplit(s, Discrepant(diff), IsSurplus(diff), IsShortfall(diff));
    CountComplement(s, IsExact(diff), Discrepant(diff));
    st
  }

  /** Appending a record adds one to the total and to exactly one of the three sign counts. */
  lemma StatisticsAppend<R>(s: seq<R>, x: R, diff: R -> int, unmatched: R -> bool)
    ensures var before, after := Statistics(s, diff, unmatched), Statistics(s + [x], diff, unmatched);
      && after.total == before.total + 1
      && after.exact == before.exact + (if diff(x) == 0 then 1 else 0)
      && after.surplus == before.surplus + (if diff(x) > 0 then 1 else 0)
      && after.shortfall == before.shortfall + (if diff(x) < 0 then 1 else 0)
      && after.notFound == before.notFound + (if unmatched(x) then 1 else 0)
  {
    CountAppend(s, x, IsExact(diff));
    CountAppend(s, x, IsSurplus(diff));
    CountAppend(s, x, IsShortfall(diff));
    CountAppend(s, x, unmatched);
  }

  /** `part` as a percentage of `whole`, kept exact; the implementations round it for display. */
  function Percent(part: nat, whole: nat): (p: real)
    requires whole > 0
    ensures p * (whole as real) == (part as real) * 100.0
    ensures part <= whole ==> 0.0 <= p <= 100.0
    ensures p == 100.0 <==> part == whole
    ensures p == 0.0 <==> part == 0
    ensures p >= 50.0 <==> 2 * part >= whole
    ensures p == 50.0 <==> 2 * part == whole
  {
    var p := (part as real) / (whole as real) * 100.0;
    PercentBounds(part, whole, p);
    p
  }

  /** Any `p` with `p * whole == part * 100` sits against 0, 50 and 100 as `part` does against `whole`. */
  lemma PercentBounds(part: nat, whole: nat, p: real)
    requires whole > 0
    requires p * (whole as real) == (part as real) * 100.0
    ensures part <= whole ==> 0.0 <= p <= 100.0
    ensures p == 100.0 <==> part == whole
    ensures p == 0.0 <==> part == 0
    ensures p >= 50.0 <==> 2 * part >= whole
    ensures p == 50.0 <==> 2 * part == whole
  {
    var w, q := whole as real, (part as real) * 100.0;
    ScaledCompare(p, w, q, 0.0);
    ScaledCompare(p, w, q, 50.0);
    ScaledCompare(p, w, q, 100.0);
  }

  /** When `p * w == q` with `w` positive, `p` compares with `c` as `q` does with `c * w`. */
  lemma ScaledCompare(p: real, w: real, q: real, c: real)
    requires w > 0.0
    requires p * w == q
    ensures p <= c <==> q <= c * w
    ensures p >= c <==> q >= c * w
    ensures p == c <==> q == c * w
  {
    assert q - c * w == (p - c) * w;
  }

  /** The percentages of a part and of the rest of the whole add up to 100. */
  lemma PercentComplement(part: nat, whole: nat)
    requires part <= whole && whole > 0
    ensures Percent(whole - part, whole) + Percent(part, whole) == 100.0
  {
    var w := whole as real;
    assert ((whole - part) as real) / w + (part as real) / w == w / w;
  }

  /** Exact records as a percentage of all records, 0 for an empty session. */
  function Precision(exact: nat, total: nat): (p: real)
    ensures total == 0 ==> p == 0.0
    ensures total > 0 ==> p * (total as real) == (exact as real) * 100.0
    ensures exact <= total ==> 0.0 <= p <= 100.0
    ensures total > 0 ==> (p == 100.0 <==> exact == total)
    ensures total > 0 ==> (p == 0.0 <==> exact == 0)
  {
    if total > 0 then Percent(exact, total) else 0.0
  }

  /** The four outcomes a counted pallet can have; an unmatched pallet has no meaningful sign. */
  datatype Outcome = Exact | Surplus | Shortfall | NotFound

  function Classify<R>(r: R, diff: R -> int, unmatched: R -> bool): Outcome {
    if unmatched(r) then NotFound
    else if diff(r) == 0 then Exact
    else if diff(r) > 0 then Surplus
    else Shortfall
  }

  function HasOutcome<R>(o: Outcome, diff: R -> int, unmatched: R -> bool): R -> bool {
    (r: R) => Classify(r, diff, unmatched) == o
  }

  /** A four-way split of the records: each record counts under exactly one outcome. */
  datatype Distribution = Distribution(exact: nat, surplus: nat, shortfall: nat, notFound: nat)

  /**
    The distribution the results chart means to show: the four counts add up
    to the number of records, not-found agrees with the statistics, and each
    sign count is at most the statistics' count, with equality when every
    record was matched.
   */
  function Distribute<R>(s: seq<R>, diff: R -> int, unmatched: R -> bool): (d: Distribution)
    ensures d.exact + d.surplus + d.shortfall + d.notFound == |s|
    ensures d.notFound == Statistics(s, diff, unmatched).notFound
    ensures var st := Statistics(s, diff, unmatched);
      d.exact <= st.exact && d.surplus <= st.surplus && d.shortfall <= st.shortfall
    ensures var st := Statistics(s, diff, unmatched);
      st.notFound == 0 ==> d == Distribution(st.exact, st.surplus, st.shortfall, 0)
  {
    var d := Distribution(
      Count(s, HasOutcome(Exact, diff, unmatched)),
      Count(s, HasOutcome(Surplus, diff, unmatched)),
      Count(s, HasOutcome(Shortfall, diff, unmatched)),
      Count(s, HasOutcome(NotFound, diff, unmatched)));
    DistributionProperties(s, diff, unmatched);
    d
  }

  /**
    Appending one record adds it to exactly one slice: to not-found when it is
    unmatched, and otherwise to the slice its difference's sign names.
   */
  lemma DistributeAppend<R>(s: seq<R>, x: R, diff: R -> int, unmatched: R -> bool)
    ensures var before, after := Distribute(s, diff, unmatched), Distribute(s + [x], diff, unmatched);
      && after.notFound == before.notFound + (if unmatched(x) then 1 else 0)
      && after.exact == before.exact + (if !unmatched(x) && diff(x) == 0 then 1 else 0)
      && after.surplus == before.surplus + (if !unmatched(x) && diff(x) > 0 then 1 else 0)
      && after.shortfall == before.shortfall + (if !unmatched(x) && diff(x) < 0 then 1 else 0)
  {
    CountAppend(s, x, HasOutcome(Exact, diff, unmatched));
    CountAppend(s, x, HasOutcome(Surplus, diff, unmatched));
    CountAppend(s, x, HasOutcome(Shortfall, diff, unmatched));
    CountAppend(s, x, HasOutcome(NotFound, diff, unmatched));
  }

  function Matched<R>(unmatched: R -> bool): R -> bool {
    (r: R) => !unmatched(r)
  }

  function EitherOf<R>(p: R -> bool, q: R -> bool): R -> bool {
    (r: R) => p(r) || q(r)
  }

  lemma DistributionProperties<R>(s: seq<R>, diff: R -> int, unmatched: R -> bool)
    ensures var ex, su, sh, nf := HasOutcome(Exact, diff, unmatched), HasOutcome(Surplus, diff, unmatched),
                                  HasOutcome(Shortfall, diff, unmatched), HasOutcome(NotFound, diff, unmatched);
      && Count(s, ex) + Count(s, su) + Count(s, sh) + Count(s, nf) == |s|
      && Count(s, nf) == Count(s, unmatched)
      && Count(s, ex) <= Count(s, IsExact(diff))
      && Count(s, su) <= Count(s, IsSurplus(diff))
      && Count(s, sh) <= Count(s, IsShortfall(diff))
      && (Count(s, unmatched) == 0 ==>
            && Count(s, ex) == Count(s, IsExact(diff))
            && Count(s, su) == Count(s, IsSurplus(diff))
            && Count(s, sh) == Count(s, IsShortfall(diff)))
  {
    var ex, su, sh, nf := HasOutcome(Exact, diff, unmatched), HasOutcome(Surplus, diff, unmatched),
                          HasOutcome(Shortfall, diff, unmatched), HasOutcome(NotFound, diff, unmatched);
    var signed := Matched(unmatched);
    var exOrSu := EitherOf(ex, su);
    CountSplit(s, exOrSu, ex, su);
    CountSplit(s, signed, exOrSu, sh);
    CountComplement(s, signed, nf);
    CountCongruent(s, nf, unmatched);
    CountMonotonic(s, ex, IsExact(diff));
    CountMonotonic(s, su, IsSurplus(diff));
    CountMonotonic(s, sh, IsShortfall(diff));
    if Count(s, unmatched) == 0 {
      CountPositive(s, unmatched);
      CountCongruent(s, ex, IsExact(diff));
      CountCongruent(s, su, IsSurplus(diff));
      CountCongruent(s, sh, IsShortfall(diff));
    }
  }
}

=== FILE: text.dfy ===
/**
  The string operations the tool relies on: Python's `str.strip()`,
  `str.upper()`, case-insensitive containment, `str(int)` and pandas'
  numeric coercion of a quantity cell. Case mapping covers ASCII and the
  Latin-1 block, which is where the tool's Spanish identifiers and names live.
 */
module Text {
  import opened Wrappers

  /** The characters Python's `str.isspace()` accepts, hence the ones `str.strip()` removes. */
  predicate IsSpace(c: char) {
    if c <= ' ' then c == ' ' || '\t' <= c <= '\r' || '\U{1C}' <= c
    else if c < '\U{85}' then false
    else if c <= '\U{A0}' then c == '\U{85}' || c == '\U{A0}'
    else
      || c == '\U{1680}'
      || '\U{2000}' <= c <= '\U{200A}'
      || c == '\U{2028}' || c == '\U{2029}' || c == '\U{202F}' || c == '\U{205F}' || c == '\U{3000}'
  }

  predicate AllSpace(s: string) {
    forall i :: 0 <= i < |s| ==> IsSpace(s[i])
  }

  lemma AllSpaceConcat(a: string, b: string)
    requires AllSpace(a) && AllSpace(b)
    ensures AllSpace(a + b)
  {
    assert forall i :: 0 <= i < |a + b| ==> (a + b)[i] == if i < |a| then a[i] else b[i - |a|];
  }

  /** Neither end of `s` is whitespace. */
  predicate IsStripped(s: string) {
    |s| == 0 || (!IsSpace(s[0]) && !IsSpace(s[|s| - 1]))
  }

  function TrimLeft(s: string): string {
    if |s| > 0 && IsSpace(s[0]) then TrimLeft(s[1..]) else s
  }

  function TrimRight(s: string): string {
    if |s| > 0 && IsSpace(s[|s| - 1]) then TrimRight(s[..|s| - 1]) else s
  }

  /** Python's `s.strip()`. */
  function Strip(s: string): string {
    TrimRight(TrimLeft(s))
  }

  /** `TrimLeft` drops exactly the leading whitespace. */
  lemma {:induction false} TrimLeftShape(s: string) returns (i: nat)
    ensures i <= |s| && TrimLeft(s) == s[i..]
    ensures AllSpace(s[..i]) && (i == |s| || !IsSpace(s[i]))
  {
    if |s| > 0 && IsSpace(s[0]) {
      var k := TrimLeftShape(s[1..]);
      i := k + 1;
      assert s[1..][k..] == s[i..];
      assert s[..i] == [s[0]] + s[1..][..k];
    } else {
      i := 0;
    }
  }

  /** `TrimRight` drops exactly the trailing whitespace. */
  lemma {:induction false} TrimRightShape(s: string) returns (j: nat)
    ensures j <= |s| && TrimRight(s) == s[..j]
    ensures AllSpace(s[j..]) && (j == 0 || !IsSpace(s[j - 1]))
  {
    if |s| > 0 && IsSpace(s[|s| - 1]) {
      j := TrimRightShape(s[..|s| - 1]);
      assert s[..|s| - 1][..j] == s[..j];
      assert s[j..] == s[..|s| - 1][j..] + [s[|s| - 1]];
    } else {
      j := |s|;
    }
  }

  /** Where the stripped core sits inside the original string: whitespace, the core, whitespace. */
  lemma StripBounds(s: string) returns (i: nat, j: nat)
    ensures i <= j <= |s| && Strip(s) == s[i..j] && IsStripped(Strip(s))
    ensures AllSpace(s[..i]) && AllSpace(s[j..])
  {
    i := TrimLeftShape(s);
    var left := s[i..];
    var k := TrimRightShape(left);
    j := i + k;
    assert left[..k] == s[i..j];
    assert left[k..] == s[j..];
    if k > 0 {
      assert s[i..j][0] == s[i];
    }
  }

  lemma {:induction false} TrimLeftSpaces(a: string, x: string)
    requires AllSpace(a)
    ensures TrimLeft(a + x) == TrimLeft(x)
  {
    if |a| > 0 {
      assert (a + x)[1..] == a[1..] + x;
      TrimLeftSpaces(a[1..], x);
    } else {
      assert a + x == x;
    }
  }

  lemma {:induction false} TrimRightSpaces(x: string, b: string)
    requires AllSpace(b)
    ensures TrimRight(x + b) == TrimRight(x)
  {
    if |b| > 0 {
      assert (x + b)[..|x + b| - 1] == x + b[..|b| - 1];
      TrimRightSpaces(x, b[..|b| - 1]);
    } else {
      assert x + b == x;
    }
  }

  /** The stripped core of a whitespace-padded string is unique: it is what `Strip` returns. */
  lemma StripUnique(a: string, t: string, b: string)
    requires AllSpace(a) && AllSpace(b) && IsStripped(t)
    ensures Strip(a + t + b) == t
  {
    assert a + t + b == a + (t + b);
    TrimLeftSpaces(a, t + b);
    if |t| == 0 {
      assert t + b == b + [];
      TrimLeftSpaces(b, []);
    } else {
      TrimRightSpaces(t, b);
    }
  }

  /** Whitespace added around a string does not change what it strips to. */
  lemma StripPadded(a: string, s: string, b: string)
    requires AllSpace(a) && AllSpace(b)
    ensures Strip(a + s + b) == Strip(s)
  {
    var i, j := StripBounds(s);
    var core := Strip(s);
    Regroup(a, s, b, i, j);
    AllSpaceConcat(a, s[..i]);
    AllSpaceConcat(s[j..], b);
    StripUnique(a + s[..i], core, s[j..] + b);
  }

  lemma Regroup(a: string, s: string, b: string, i: nat, j: nat)
    requires i <= j <= |s|
    ensures a + s + b == (a + s[..i]) + s[i..j] + (s[j..] + b)
  {
    assert s == s[..i] + s[i..j] + s[j..];
  }

  /** Stripping leaves no whitespace at either end. */
  lemma StripIsStripped(s: string)
    ensures IsStripped(Strip(s))
  {
    var _, _ := StripBounds(s);
  }

  /** Stripping twice is stripping once. */
  lemma StripIdempotent(s: string)
    ensures Strip(Strip(s)) == Strip(s)
  {
    var i, j := StripBounds(s);
    assert [] + Strip(s) + [] == Strip(s);
    StripUnique([], Strip(s), []);
  }

  /** Python's `c.upper()` on ASCII and Latin-1 characters; `ß` becomes two characters. */
  function UpperChar(c: char): string {
    if 'a' <= c <= 'z' || ('\U{E0}' <= c <= '\U{FE}' && c != '\U{F7}') then [(c as int - 32) as char]
    else if c == '\U{DF}' then "SS"
    else if c == '\U{FF}' then ['\U{178}']
    else if c == '\U{B5}' then ['\U{39C}']
    else [c]
  }

  /** Python's `s.upper()`. */
  function Upper(s: string): string {
    if |s| == 0 then [] else UpperChar(s[0]) + Upper(s[1..])
  }

  /** The lower-case partner of an upper-case ASCII or Latin-1 letter; other characters are kept. */
  function LowerChar(c: char): char {
    if 'A' <= c <= 'Z' || ('\U{C0}' <= c <= '\U{DE}' && c != '\U{D7}') then (c as int + 32) as char
    else if c == '\U{178}' then '\U{FF}'
    else c
  }

  function Lower(s: string): (r: string)
    ensures |r| == |s| && forall i :: 0 <= i < |s| ==> r[i] == LowerChar(s[i])
  {
    seq(|s|, i requires 0 <= i < |s| => LowerChar(s[i]))
  }

  /** Lower-casing before upper-casing changes nothing: case variants have one upper form. */
  lemma {:induction false} UpperOfLower(s: string)
    ensures Upper(Lower(s)) == Upper(s)
  {
    if |s| > 0 {
      assert Lower(s)[1..] == Lower(s[1..]);
      UpperOfLower(s[1..]);
    }
  }

  /** Upper-case ASCII letters and digits: text that `Upper` leaves alone. */
  predicate IsUpperAlnum(s: string) {
    forall i :: 0 <= i < |s| ==> 'A' <= s[i] <= 'Z' || '0' <= s[i] <= '9'
  }

  lemma {:induction false} UpperOfUpperAlnum(s: string)
    requires IsUpperAlnum(s)
    ensures Upper(s) == s
  {
    if |s| > 0 {
      assert IsUpperAlnum(s[1..]);
      UpperOfUpperAlnum(s[1..]);
    }
  }

  /** Lower-casing twice is lower-casing once. */
  lemma LowerIdempotent(s: string)
    ensures Lower(Lower(s)) == Lower(s)
  {
    assert forall i :: 0 <= i < |s| ==> LowerChar(LowerChar(s[i])) == LowerChar(s[i]);
  }

  /** The letter case of a search term does not change what it finds. */
  lemma ContainsLowerTerm(h: string, term: string)
    ensures ContainsIgnoringCase(h, Lower(term)) == ContainsIgnoringCase(h, term)
  {
    LowerIdempotent(term);
  }

  /** The empty term occurs in every text. */
  lemma ContainsEmpty(h: string)
    ensures ContainsIgnoringCase(h, "")
  {
    assert OccursAt(Lower(""), Lower(h), 0);
  }

  /** `n` occurs in `h` as a contiguous piece. */
  predicate IsSubstring(n: string, h: string) {
    exists i :: 0 <= i <= |h| - |n| && OccursAt(n, h, i)
  }

  predicate OccursAt(n: string, h: string, i: nat) {
    i + |n| <= |h| && h[i..i + |n|] == n
  }

  /** pandas' `str.contains(term, case=False)` for a term without regular-expression syntax. */
  predicate ContainsIgnoringCase(h: string, term: string) {
    IsSubstring(Lower(term), Lower(h))
  }

  function DigitChar(d: nat): char
    requires d < 10
  {
    "0123456789"[d]
  }

  predicate IsDigit(c: char) {
    '0' <= c <= '9'
  }

  /** Every character of `s` is a decimal digit. */
  predicate AllDigits(s: string) {
    forall i :: 0 <= i < |s| ==> IsDigit(s[i])
  }

  function DigitValue(c: char): nat
    requires IsDigit(c)
  {
    c as int - '0' as int
  }

  /** Python's `str(n)` for a natural number. */
  function NatToString(n: nat): (r: string)
    ensures |r| > 0
    ensures AllDigits(r)
  {
    if n < 10 then [DigitChar(n)] else NatToString(n / 10) + [DigitChar(n % 10)]
  }

  /** Python's `str(n)` for an integer. */
  function IntToString(n: int): (r: string)
    ensures |r| > 0
  {
    if n < 0 then "-" + NatToString(-n) else NatToString(n)
  }

  /** The value of a run of decimal digits. */
  function DigitsValue(s: string): nat
    requires AllDigits(s)
  {
    if |s| == 0 then 0 else DigitsValue(s[..|s| - 1]) * 10 + DigitValue(s[|s| - 1])
  }

  /** Length of the run of digits at the start of `s`. */
  function DigitRun(s: string): (k: nat)
    ensures k <= |s|
    ensures forall i :: 0 <= i < k ==> IsDigit(s[i])
    ensures k < |s| ==> !IsDigit(s[k])
  {
    if |s| > 0 && IsDigit(s[0]) then 1 + DigitRun(s[1..]) else 0
  }

  /**
    An unsigned decimal numeral, truncated toward zero: digits, optionally followed
    by `.` and more digits; one of the two digit runs must be non-empty.
   */
  function ParseUnsigned(s: string): Option<nat> {
    var k := DigitRun(s);
    if k == |s| then (if k == 0 then None else Some(DigitsValue(s)))
    else if s[k] == '.' && DigitRun(s[k + 1..]) == |s| - k - 1 && (k > 0 || k + 1 < |s|) then Some(DigitsValue(s[..k]))
    else None
  }

  /**
    The blanks pandas' numeric parser skips around a number: space, tab, line
    feed, vertical tab, form feed and carriage return. Unlike `str.strip()` it
    does not skip other Unicode spaces such as the no-break space.
   */
  predicate IsAsciiSpace(c: char) {
    c == ' ' || '\t' <= c <= '\r'
  }

  function AsciiTrimLeft(s: string): (r: string)
    ensures |r| <= |s|
  {
    if |s| > 0 && IsAsciiSpace(s[0]) then AsciiTrimLeft(s[1..]) else s
  }

  function AsciiTrimRight(s: string): (r: string)
    ensures |r| <= |s|
  {
    if |s| > 0 && IsAsciiSpace(s[|s| - 1]) then AsciiTrimRight(s[..|s| - 1]) else s
  }

  /** `s` without its leading and trailing ASCII blanks. */
  function AsciiTrim(s: string): string {
    AsciiTrimRight(AsciiTrimLeft(s))
  }

  /** Text that neither starts nor ends with an ASCII blank is left as it is. */
  lemma AsciiTrimOfEnds(s: string)
    requires |s| > 0 && !IsAsciiSpace(s[0]) && !IsAsciiSpace(s[|s| - 1])
    ensures AsciiTrim(s) == s
  {
  }

  /**
    pandas' `to_numeric(cell, errors='coerce')` followed by `astype(int)`:
    surrounding ASCII blanks are ignored, an optional sign is accepted, and a
    fraction is truncated toward zero. Anything else is not a number.
   */
  function ParseQuantity(cell: string): Option<int> {
    ParseSigned(AsciiTrim(cell))
  }

  /** An unsigned numeral with an optional leading sign. */
  function ParseSigned(t: string): Option<int> {
    if |t| > 0 && (t[0] == '-' || t[0] == '+') then
      match ParseUnsigned(t[1..])
      case None => None
      case Some(v) => Some(if t[0] == '-' then -(v as int) else v)
    else ParseUnsigned(t)
  }

  /** The loader's quantity coercion: a cell that is not a number becomes 0 (`fillna(0)`). */
  function CoerceQuantity(cell: string): int {
    ParseQuantity(cell).GetOr(0)
  }

  lemma {:induction false} DigitsOfNat(n: nat)
    ensures DigitsValue(NatToString(n)) == n
  {
    if n >= 10 {
      var s := NatToString(n);
      assert s[..|s| - 1] == NatToString(n / 10);
      DigitsOfNat(n / 10);
    }
  }

  lemma DigitsTrimmed(s: string)
    requires |s| > 0 && AllDigits(s)
    ensures AsciiTrim(s) == s
  {
    assert IsDigit(s[0]) && IsDigit(s[|s| - 1]);
    AsciiTrimOfEnds(s);
  }

  lemma ParseDigits(s: string)
    requires |s| > 0 && AllDigits(s)
    ensures ParseUnsigned(s) == Some(DigitsValue(s))
  {
    assert DigitRun(s) == |s|;
  }

  lemma StripOfStripped(s: string)
    requires IsStripped(s)
    ensures Strip(s) == s
  {
    assert [] + s + [] == s;
    StripUnique([], s, []);
  }

  lemma ParseNegated(d: string, v: nat)
    requires ParseUnsigned(d) == Some(v)
    ensures ParseSigned("-" + d) == Some(-(v as int))
  {
    assert ("-" + d)[1..] == d;
  }

  /** A minus sign followed by a digit run has no blanks to trim. */
  lemma NegatedDigitsTrimmed(d: string)
    requires |d| > 0 && AllDigits(d)
    ensures AsciiTrim("-" + d) == "-" + d
  {
    var s := "-" + d;
    assert s[|s| - 1] == d[|d| - 1];
    assert IsDigit(d[|d| - 1]);
    AsciiTrimOfEnds(s);
  }

  /** A minus sign followed by a digit run parses to the negated value of the run. */
  lemma NegatedDigits(d: string)
    requires |d| > 0 && AllDigits(d)
    ensures ParseQuantity("-" + d) == Some(-(DigitsValue(d) as int))
  {
    var s, v := "-" + d, DigitsValue(d);
    NegatedDigitsTrimmed(d);
    ParseDigits(d);
    ParseNegated(d, v);
    QuantityOfTrimmed(s, Some(-(v as int)));
  }

  /** The quantity of a cell without surrounding blanks is its signed numeral. */
  lemma QuantityOfTrimmed(s: string, q: Option<int>)
    requires AsciiTrim(s) == s && ParseSigned(s) == q
    ensures ParseQuantity(s) == q
  {
  }

  lemma NegativeRoundTrip(n: int)
    requires n < 0
    ensures ParseQuantity("-" + NatToString(-n)) == Some(n)
  {
    DigitsOfNat(-n);
    NegatedDigits(NatToString(-n));
  }

  lemma NonNegativeRoundTrip(m: nat)
    ensures ParseQuantity(NatToString(m)) == Some(m)
  {
    var digits := NatToString(m);
    DigitsOfNat(m);
    ParseDigits(digits);
    DigitsTrimmed(digits);
  }

  /** Rendering an integer with `str` and coercing it back gives the integer. */
  lemma QuantityRoundTrip(n: int)
    ensures ParseQuantity(IntToString(n)) == Some(n)
    ensures CoerceQuantity(IntToString(n)) == n
  {
    if n < 0 {
      NegativeRoundTrip(n);
    } else {
      NonNegativeRoundTrip(n);
    }
  }

  /**
    ASCII blanks around a quantity are skipped, but a no-break space (common in
    pasted data) makes the cell not a number, so it is coerced to 0.
   */
  lemma QuantityBlanks()
    ensures ParseQuantity(" 50\t") == Some(50)
    ensures ParseQuantity(['\U{A0}'] + "50").None?
    ensures CoerceQuantity(['\U{A0}'] + "50") == 0
  {
    assert AsciiTrimLeft(" 50\t") == "50\t";
    assert AsciiTrimRight("50\t") == "50";
    assert AllDigits("50");
    ParseDigits("50");
    assert DigitsValue("50") == 50 by {
      assert "50"[..1] == "5";
    }
    var nb := ['\U{A0}'] + "50";
    AsciiTrimOfEnds(nb);
    assert DigitRun(nb) == 0;
  }
}

=== FILE: wrappers.dfy ===
/** Failure-carrying values shared by every module of the model. */
module Wrappers {

  /** A value that may be absent: Python's `None` versus a present value. */
  datatype Option<+T> = None | Some(value: T) {

    /** The present value, or `default` when absent (Python's `x if x is not None else d`). */
    function GetOr(default: T): T {
      match this
      case Some(v) => v
      case None => default
    }
  }

  /** Either a computed value or the error that stopped the computation. */
  datatype Result<+R, +E> = Success(value: R) | Failure(error: E)
}
